=== FILE: README.md ===
# Integrity analyzer routes in Dafny

This project models the request handling of the two `POST /api/analyzer`
routes of the Integrity application, and the Solana helpers the first one
calls.

* **Main analyzer route** (`main/src/app/api/analyzer/route.ts`). The
  request is a multipart form or a JSON body.
  * A request with neither a file count nor a non-blank prompt is refused.
  * A positive count with a `file_0` takes the whitepaper branch. The file
    passes the PDF and 10 MB checks, its text is extracted, and the first
    3000 characters go to Gemini in a fixed prompt. The reply is cleaned up
    for `JSON.parse`, with a fallback when parsing fails.
  * Otherwise a non-blank prompt takes the chat branch. Gemini answers with
    tool declarations. The first function call of the first candidate is
    dispatched to `getSolBalance`, `getTokenHoldings` or
    `getSolanaAccountInfo`. The tool's result, or its error, goes back to
    Gemini for a natural-language answer. Without a call, the text parts
    joined by spaces are the answer.
* **Solana helpers** (`main/utils/solanaRpc.ts`). The model covers the
  formatting of the token-holdings summary and the null and error
  behaviour of the three helpers.
* **Page-reviewer route** (`page_reviewer/src/app/api/analyzer/route.ts`).
  * Slots `file_0 .. file_{fileCount-1}` are visited in order. Missing
    slots are skipped, and each present file is checked, extracted and
    reviewed.
  * Four issue counts are read off each review by the pattern
    `(\d+)\s*(?:a|b)` with the `i` flag.
  * The first failing file aborts the whole request.

Modules:

* `Effects`: `Option`, and a `Reply` that is a value or a thrown message.
* `Text`: the JavaScript string built-ins the routes use. `trim` and `\s`
  share one white-space set.
* `Upload`: the form count after `parseInt` (an integer or NaN), the file
  metadata, and the upload checks with their messages.
* `Gemini`: the SDK as an oracle, and the two wrappers that rethrow with
  "Gemini API error: ".
* `SolanaRpc`: the helpers, with the RPC connection as an oracle.
* `ReplyCleanup`: the regex pipeline before `JSON.parse`, modelled regex
  by regex with the engine's leftmost-match choice.
* `ToolDispatch`: the chat branch.
* `AnalyzerRoute`: the main route.
* `PageReviewer`: the count scanner, one file's review, and the slot loop.

Everything outside the code is a parameter: Gemini, pdf-parse,
`new PublicKey`, the RPC connection, `JSON.parse` acceptance and
`JSON.stringify`. Every result is therefore stated for all behaviours of
these services.

One consequence of the reply clean-up, proved below, is worth knowing.
The final `replace(/[^}]*$/, '}')` matches the empty string after a
trailing `}`. So a reply that is already a JSON object reaches `JSON.parse`
with one extra `}`, whether it comes bare or fenced as ```` ```json ````.

## Model

| member | source | states |
|---|---|---|
| Text.TrimEmptyIffBlank | main/src/app/api/analyzer/route.ts:654 | `s.trim()` is empty exactly when every character of `s` is white space |
| Text.Trim | main/src/app/api/analyzer/route.ts:654 | the trimmed text is never longer and has no white space at either end (with TrimIsSlice: exactly the ends are removed) |
| Text.TrimIsSlice | main/src/app/api/analyzer/route.ts:682 | `trim` removes only white space, and only from the two ends: the input is a blank prefix, the result, and a blank suffix |
| Text.DigitsValueOfNatToString | page_reviewer/src/app/api/analyzer/route.ts:79 | reading back the decimal rendering of a count with `parseInt` gives the count |
| Upload.CheckUpload | main/src/app/api/analyzer/route.ts:641-647 | a file passes exactly when it is a PDF (MIME type or case-insensitive `.pdf` name) of at most 10 MB; the type message wins over the size message; every rejection names the file |
| Upload.SizeLimitBoundary | main/src/app/api/analyzer/route.ts:644-647 | exactly 10 MB is accepted, one byte more is rejected |
| Upload.PdfExtensionAnyCase | main/src/app/api/analyzer/route.ts:641 | any letter case of a `.pdf` name counts as a PDF, whatever the MIME type |
| Upload.MessagesNameFile | page_reviewer/src/app/api/analyzer/route.ts:147-163 | the no-text and the processing-failure messages contain the file name |
| Gemini.ApiError | main/src/app/api/analyzer/route.ts:559-562 | a rethrown failure is "Gemini API error: " followed by the original message |
| Gemini.CallWithTools | main/src/app/api/analyzer/route.ts:546-562 | the SDK's candidates pass through unchanged; a failure is rethrown with the prefix |
| Gemini.CallForAnalysis | main/src/app/api/analyzer/route.ts:593-605 | the reply text passes through unchanged; a failure is rethrown with the prefix |
| SolanaRpc.Abbreviate | main/utils/solanaRpc.ts:97 | the abbreviation is the first six characters, then "...", then the last six (fewer of each for a short address), and has length twice that plus three |
| SolanaRpc.GetSolBalance | main/utils/solanaRpc.ts:15-25 | null exactly when the address is malformed or the RPC fails; otherwise the formatted balance |
| SolanaRpc.HoldingLine | main/utils/solanaRpc.ts:67 | a holdings line is the rendered amount, " tokens of mint: " and the abbreviated mint, in that order and nothing else |
| SolanaRpc.HoldingLines | main/utils/solanaRpc.ts:50-70 | at most one line per account; no line at all exactly when no account is an `spl-token` account with a positive ui amount |
| SolanaRpc.HoldingLinesAppend | main/utils/solanaRpc.ts:53-70 | the lines of two account lists are the lines of each, in order |
| SolanaRpc.HoldingLinesSingle | main/utils/solanaRpc.ts:58-68 | one account gives its line when it qualifies, and nothing otherwise |
| SolanaRpc.SummarizeHoldings | main/utils/solanaRpc.ts:46-72 | the no-tokens message for no accounts; the zero-balance message when none qualifies; otherwise the lines joined by newlines |
| SolanaRpc.HoldingsErrorMessage | main/utils/solanaRpc.ts:74-81 | the configuration message exactly when the error mentions the unrecognized token program; otherwise "Error retrieving token holdings for <address>." |
| SolanaRpc.GetTokenHoldings | main/utils/solanaRpc.ts:33-82 | never null, despite the nullable signature; a malformed address gives the generic error naming the address; an RPC failure gives the configuration message exactly when its message names the unrecognized program, and the generic error otherwise; a success gives the summary |
| SolanaRpc.GetSolanaAccountInfo | main/utils/solanaRpc.ts:90-130 | never null; a malformed address or an RPC failure gives the error naming the address; a missing account gives "Account <abbr> not found."; a found account's summary starts with the header "Account Info for <abbr>:" and a line break |
| ReplyCleanup.StripFences | main/src/app/api/analyzer/route.ts:683 | removing the fences never lengthens the text |
| ReplyCleanup.StripFencesNoBacktick | main/src/app/api/analyzer/route.ts:683 | text without a backtick is left alone |
| ReplyCleanup.StripClosingFence | main/src/app/api/analyzer/route.ts:683 | a closing fence after backtick-free text is removed and nothing else |
| ReplyCleanup.FencedBody | main/src/app/api/analyzer/route.ts:683 | "```json", white space, body, "```" leaves exactly the body |
| ReplyCleanup.StripFencesPrefix | main/src/app/api/analyzer/route.ts:683 | backtick-free text before the rest is kept and the rest is stripped on its own |
| ReplyCleanup.LeadingPlainFence | main/src/app/api/analyzer/route.ts:683 | a leading "```" that does not read "```json" goes with the white space after it |
| ReplyCleanup.PlainFence | main/src/app/api/analyzer/route.ts:683 | a plain "```" marker anywhere in backtick-free text is removed together with the white space after it, and nothing else changes |
| ReplyCleanup.ObjectSpanMeaning | main/src/app/api/analyzer/route.ts:685 | the first `{` precedes the last `}` exactly when some `{` precedes some `}` |
| ReplyCleanup.OpensObjectAtMeaning | main/src/app/api/analyzer/route.ts:685 | the object pattern can start at q exactly when q holds `{` and a `}` follows |
| ReplyCleanup.ObjectMatchStart | main/src/app/api/analyzer/route.ts:685 | the found start is the leftmost one where the pattern can match, and none means no position can |
| ReplyCleanup.ObjectMatchNone | main/src/app/api/analyzer/route.ts:685-686 | no match means no `{` before a `}` |
| ReplyCleanup.ObjectMatchSome | main/src/app/api/analyzer/route.ts:685-686 | a match starts at the first `{` |
| ReplyCleanup.ObjectMatchSound | main/src/app/api/analyzer/route.ts:685-686 | a match implies a `{` before a `}` |
| ReplyCleanup.ObjectMatchComplete | main/src/app/api/analyzer/route.ts:685-686 | a `{` before a `}` implies a match |
| ReplyCleanup.ObjectMatchSlice | main/src/app/api/analyzer/route.ts:685-688 | the greedy match runs from the first `{` to the last `}` |
| ReplyCleanup.ObjectMatch | main/src/app/api/analyzer/route.ts:685-688 | a match is at least two characters, from a `{` to a `}` (with ObjectMatchIsSpan: exactly the span from the first `{` to the last `}`) |
| ReplyCleanup.ObjectMatchIsSpan | main/src/app/api/analyzer/route.ts:685-688 | the object regex matches exactly when some `{` precedes some `}`, and then yields the span from the first `{` to the last `}` |
| ReplyCleanup.CloseFromMeaning | main/src/app/api/analyzer/route.ts:690 | a `}` occurs at or after q exactly when some index at or after q holds `}` |
| ReplyCleanup.DropToOpenBrace | main/src/app/api/analyzer/route.ts:689 | the result is the suffix of the text from its first `{`: empty exactly when there is no `{`, otherwise starting with `{`, and no `{` in the removed part |
| ReplyCleanup.TailMatchStart | main/src/app/api/analyzer/route.ts:690 | the tail pattern's leftmost match starts at the first position with no `}` after it |
| ReplyCleanup.TailMatchIsLastClose | main/src/app/api/analyzer/route.ts:690 | that position is just after the last `}` |
| ReplyCleanup.CloseTail | main/src/app/api/analyzer/route.ts:690 | everything after the last `}` is replaced by a single `}`, so the text after the last `}` is dropped and a `}` is added |
| ReplyCleanup.CloseOfObject | main/src/app/api/analyzer/route.ts:689-690 | on text from `{` to `}` the last two replacements only add one `}` |
| ReplyCleanup.SpanEnds | main/src/app/api/analyzer/route.ts:685-688 | the matched span starts with `{` and ends with `}` |
| ReplyCleanup.SliceAndCloseSpan | main/src/app/api/analyzer/route.ts:685-690 | with a span, the parser gets the span plus one `}` |
| ReplyCleanup.SliceAndCloseNoSpan | main/src/app/api/analyzer/route.ts:685-690 | without a span, the parser gets `}` alone |
| ReplyCleanup.SliceAndClose | main/src/app/api/analyzer/route.ts:685-690 | the result ends with `}`, and is either `}` alone or starts with `{` |
| ReplyCleanup.SliceAndCloseResult | main/src/app/api/analyzer/route.ts:685-690 | with a `{` before a `}`, the span from the first `{` to the last `}` plus `}`; otherwise `}` alone |
| ReplyCleanup.CleanReply | main/src/app/api/analyzer/route.ts:681-690 | what reaches `JSON.parse` is never empty and always ends with `}` |
| ReplyCleanup.CleanReplyResult | main/src/app/api/analyzer/route.ts:681-690 | the parser receives the `{`…`}` span of the unfenced reply plus `}`, or `}` alone when there is no span |
| ReplyCleanup.CleanReplyOfObject | main/src/app/api/analyzer/route.ts:681-690 | an unfenced reply that runs from `{` to `}` reaches the parser with one `}` added |
| ReplyCleanup.ObjectReplyGainsBrace | main/src/app/api/analyzer/route.ts:681-691 | a bare JSON object reply reaches `JSON.parse` with an extra `}` |
| ReplyCleanup.FencedObjectGainsBrace | main/src/app/api/analyzer/route.ts:681-691 | so does an object fenced as "```json\n…\n```" |
| ReplyCleanup.FencedUnfenced | main/src/app/api/analyzer/route.ts:682-684 | trimming and fence removal recover the fenced object exactly |
| ReplyCleanup.NormalizeAnalysis | main/src/app/api/analyzer/route.ts:680-698 | the parsed object exactly when the parser accepts the cleaned reply; otherwise the reply (or the fixed text when it is empty) with "Formatting error." |
| ReplyCleanup.NoObjectFallsBack | main/src/app/api/analyzer/route.ts:685-697 | a reply without `{` before `}` always falls back, since `}` alone is not JSON |
| ReplyCleanup.EmptyReplyFallsBack | main/src/app/api/analyzer/route.ts:692-697 | an empty reply yields the fixed answer text and "Formatting error." |
| ToolDispatch.FirstCallFrom | main/src/app/api/analyzer/route.ts:738-740 | the index of the first part with a function call, or none exactly when no part has one |
| ToolDispatch.RunTool | main/src/app/api/analyzer/route.ts:749-802 | a result comes with no error; neither result nor error exactly when the name is not one of the three tools; the type is never 'whitepaper_analysis'; with a non-empty valid address each tool's result is its own helper's return value |
| ToolDispatch.ToolKind | main/src/app/api/analyzer/route.ts:752-802 | the type is 'onchain_sol_balance' exactly for getSolBalance with a valid address, 'onchain_token_holdings' exactly for the token or account tool with a valid address, else 'llm_analysis' |
| ToolDispatch.MissingAddress | main/src/app/api/analyzer/route.ts:765-801 | an empty address gives "No address provided for …", naming getTokenHoldings for the account tool too |
| ToolDispatch.InvalidAddress | main/src/app/api/analyzer/route.ts:762-797 | a malformed address gives the invalid-address error, no result and type 'llm_analysis' |
| ToolDispatch.TokenToolsAlwaysAnswer | main/src/app/api/analyzer/route.ts:773-795 | with a valid address the token and account tools always have a result, so their null checks never fire |
| ToolDispatch.SolFailureReachable | main/src/app/api/analyzer/route.ts:757-761 | an RPC failure in getSolBalance gives the failure message with type 'onchain_sol_balance' |
| ToolDispatch.ResultText | main/src/app/api/analyzer/route.ts:808 | the rendered result when there is one; otherwise "Error: " followed by the error, or "Error: null" when there is no error either |
| ToolDispatch.FollowUpPrompt | main/src/app/api/analyzer/route.ts:805-810 | the follow-up prompt starts with "The user asked: \"" and contains the user's prompt, the tool name, its arguments and the result line |
| ToolDispatch.ToolOutcomeReachesModel | main/src/app/api/analyzer/route.ts:749-810 | the follow-up prompt contains the tool's rendered result when there is one, and its error message when there is one |
| ToolDispatch.UnknownToolSaysNull | main/src/app/api/analyzer/route.ts:749-810 | an unknown tool name sends "Error: null" to the model |
| ToolDispatch.TextParts | main/src/app/api/analyzer/route.ts:817 | only non-empty texts are kept; none exactly when every part's text is empty |
| ToolDispatch.TextPartsAppend | main/src/app/api/analyzer/route.ts:817 | the filter keeps order across concatenation |
| ToolDispatch.TextPartsSingle | main/src/app/api/analyzer/route.ts:817 | one part gives its text when non-empty, else nothing |
| ToolDispatch.JoinStartsWithFirst | main/src/app/api/analyzer/route.ts:819 | the joined answer begins with the first text |
| ToolDispatch.DirectAnswer | main/src/app/api/analyzer/route.ts:816-823 | never empty: the fixed "couldn't understand" text when no part has text, else the texts joined by spaces |
| ToolDispatch.AnswerCall | main/src/app/api/analyzer/route.ts:804-813 | an answer is never empty and carries the tool's type; the chat fails exactly when the follow-up call throws |
| ToolDispatch.AnswerFromParts | main/src/app/api/analyzer/route.ts:738-824 | without a call, the direct answer with type 'llm_analysis'; with one, the answer to the first call for the user's prompt; answers are never empty nor 'whitepaper_analysis' |
| ToolDispatch.OnlyFirstCallMatters | main/src/app/api/analyzer/route.ts:738-747 | the outcome depends only on the first part with a call |
| ToolDispatch.FollowUpAnswer | main/src/app/api/analyzer/route.ts:805-813 | the follow-up reply is the answer; an empty reply gives the "couldn't generate" text; a throw gives the wrapped message |
| ToolDispatch.HandleChat | main/src/app/api/analyzer/route.ts:720-838 | answers are never empty nor 'whitepaper_analysis'; an SDK failure becomes the wrapped message; "No response" exactly when there are no candidates |
| ToolDispatch.FirstCandidateOnly | main/src/app/api/analyzer/route.ts:731-732 | candidates after the first are ignored; a candidate without content or parts fails with the TypeError message |
| AnalyzerRoute.AnalyzeFile | main/src/app/api/analyzer/route.ts:635-713 | upload rejections come first with their 400 message; white-space-only text is the 400 "Could not extract text", and no other 400 arises; a failed extraction is the 500 naming the file and the extraction reason; a model failure is the 500 naming the file and the wrapped message; a model reply always gives the 200 'whitepaper_analysis' carrying the normalized reply, and no other success arises |
| AnalyzerRoute.ChatResponse | main/src/app/api/analyzer/route.ts:724-838 | success exactly for an answer, with no message and the answer's type; no response is the 500 "No response from Gemini"; a failure is the 500 "Failed to process chat: " with its reason |
| AnalyzerRoute.Post | main/src/app/api/analyzer/route.ts:627-845 | failures are 400 or 500; a 'whitepaper_analysis' success needs a positive count and a file |
| AnalyzerRoute.WhitepaperBranchEntered | main/src/app/api/analyzer/route.ts:635-663 | a positive count with a file analyzes that file with the request's prompt (empty when absent) and its extracted text |
| AnalyzerRoute.BlankRequestRejected | main/src/app/api/analyzer/route.ts:627-632 | no count and a missing or blank prompt is refused with "Please provide…", whatever the services do |
| AnalyzerRoute.NoInputOnlyWhenBlank | main/src/app/api/analyzer/route.ts:627-845 | and only such a request gets that refusal |
| AnalyzerRoute.UnusableCountRejected | main/src/app/api/analyzer/route.ts:841-844 | a NaN count, or a positive count without a file, with a blank prompt ends at "Invalid request format" |
| AnalyzerRoute.FileIgnoredWithoutCount | main/src/app/api/analyzer/route.ts:635-717 | a file sent without a positive count is ignored and the prompt goes to chat |
| AnalyzerRoute.UploadRejectedFirst | main/src/app/api/analyzer/route.ts:641-647 | a non-PDF or oversize file is refused with that check's message before anything is read |
| AnalyzerRoute.BlankTextRejected | main/src/app/api/analyzer/route.ts:654-659 | white-space-only text gives the 400 "Could not extract text" message |
| AnalyzerRoute.OnlyFirst3000Matter | main/src/app/api/analyzer/route.ts:661-677 | two texts agreeing on their first 3000 characters get the same response |
| AnalyzerRoute.SameExcerptSamePrompt | main/src/app/api/analyzer/route.ts:666 | the prompt sees the text only through its first 3000 characters |
| AnalyzerRoute.DocumentSection | main/src/app/api/analyzer/route.ts:664-675 | the document part of the prompt contains the file name and the first 3000 characters of the text |
| AnalyzerRoute.WhitepaperPrompt | main/src/app/api/analyzer/route.ts:661-675 | the prompt starts with the fixed preamble and contains the file name and the first 3000 characters of the text |
| AnalyzerRoute.EmptyQuestionDefaults | main/src/app/api/analyzer/route.ts:663 | an empty prompt is replaced by "Analyze this whitepaper" |
| AnalyzerRoute.QuestionKept | main/src/app/api/analyzer/route.ts:663 | a non-empty prompt appears verbatim in the analysis prompt |
| AnalyzerRoute.UnparsedReplyStillSucceeds | main/src/app/api/analyzer/route.ts:692-705 | a reply the parser refuses still gives a success carrying the reply and "Formatting error." |
| AnalyzerRoute.FileFailuresName | main/src/app/api/analyzer/route.ts:707-712 | an extraction or model failure is a 500 naming the file and the reason |
| AnalyzerRoute.PromptGoesToChat | main/src/app/api/analyzer/route.ts:717-838 | a non-blank prompt without a usable file is answered by the chat branch, whose successes carry no message |
| PageReviewer.KeywordsWellFormed | page_reviewer/src/app/api/analyzer/route.ts:73-76 | the eight keywords are non-empty runs of lower-case letters |
| PageReviewer.DigitRunEnd | page_reviewer/src/app/api/analyzer/route.ts:73 | `\d+` greedily takes the whole digit run |
| PageReviewer.SpaceRunEnd | page_reviewer/src/app/api/analyzer/route.ts:73 | `\s*` greedily takes the whole white-space run |
| PageReviewer.LetterLedAt | page_reviewer/src/app/api/analyzer/route.ts:73 | a keyword match starts with neither a digit nor white space |
| PageReviewer.MatchAtIsPattern | page_reviewer/src/app/api/analyzer/route.ts:73-76 | the greedy scan matches at p exactly when the regex, read as "digits, white space, keyword", matches there |
| PageReviewer.RunEndAt | page_reviewer/src/app/api/analyzer/route.ts:73 | digits then spaces then a letter: the greedy runs stop exactly there |
| PageReviewer.DigitRunFrom | page_reviewer/src/app/api/analyzer/route.ts:73 | a digit run ends at the first non-digit |
| PageReviewer.SpaceRunFrom | page_reviewer/src/app/api/analyzer/route.ts:73 | a white-space run ends at the first non-space |
| PageReviewer.FirstMatchFrom | page_reviewer/src/app/api/analyzer/route.ts:73-79 | the leftmost match position, or none exactly when no position matches |
| PageReviewer.ExtractCount | page_reviewer/src/app/api/analyzer/route.ts:73-82 | no match anywhere gives 0, and a non-zero count comes from a match |
| PageReviewer.ExtractCountIsLeftmostMatch | page_reviewer/src/app/api/analyzer/route.ts:73-82 | against the regex read as "digits, white space, keyword": no match gives 0; otherwise the count is the value of the whole digit run of the leftmost match |
| PageReviewer.DigitRunDigits | page_reviewer/src/app/api/analyzer/route.ts:79 | from a digit, the greedy `\d+` run is non-empty and all digits, and stops at a non-digit |
| PageReviewer.CountAt | page_reviewer/src/app/api/analyzer/route.ts:73-79 | digits, white space and a keyword form a match whose digits are exactly that run |
| PageReviewer.MatchAtStart | page_reviewer/src/app/api/analyzer/route.ts:79 | a match at the very start is the one whose digits are read |
| PageReviewer.LeadingDigitsRead | page_reviewer/src/app/api/analyzer/route.ts:73-82 | a review opening with digits, white space and a keyword reports the value of those digits |
| PageReviewer.LeadingCountRoundTrip | page_reviewer/src/app/api/analyzer/route.ts:73-82 | writing a count before a keyword and scanning it back gives the count |
| PageReviewer.LowerKeyword | page_reviewer/src/app/api/analyzer/route.ts:73 | a lower-case keyword is unchanged by lower-casing, so the `i` flag matches it as written |
| PageReviewer.NoDigitsNoCount | page_reviewer/src/app/api/analyzer/route.ts:73-82 | a review without digits reports 0 |
| PageReviewer.AnalysisOf | page_reviewer/src/app/api/analyzer/route.ts:73-84 | the details are the review text unchanged, and a review without a digit has all four counts 0 |
| PageReviewer.LeadingCountsRead | page_reviewer/src/app/api/analyzer/route.ts:73-84 | "n factual…", "n citation…", "n structural…" and "n improvement…" each fill their own field with n |
| PageReviewer.ReviewPrompt | page_reviewer/src/app/api/analyzer/route.ts:44-65 | the review prompt starts with the fixed reviewer instructions and contains the file name and the first 30000 characters of the text |
| PageReviewer.ReviewFile | page_reviewer/src/app/api/analyzer/route.ts:121-164 | upload rejections come first; every rejection is 400 or 500 and names the file, and a 400 is an upload rejection or blank text; a failed extraction is the 500 with the extraction reason; a model failure is the 500 with "Failed to analyze document with AI"; a file passing every check with a model reply is reviewed, with the four counts scanned from that reply |
| PageReviewer.BlankTextRejected | page_reviewer/src/app/api/analyzer/route.ts:147-152 | white-space-only text is refused with 400 |
| PageReviewer.OnlyFirst30000Matter | page_reviewer/src/app/api/analyzer/route.ts:44-67 | two texts agreeing on their first 30000 characters get the same result |
| PageReviewer.SlotCount | page_reviewer/src/app/api/analyzer/route.ts:113 | the loop visits `fileCount` slots when positive and none for a negative count or NaN |
| PageReviewer.PresentFiles | page_reviewer/src/app/api/analyzer/route.ts:113-119 | at most one file per slot, each taken from the form |
| PageReviewer.PresentSlots | page_reviewer/src/app/api/analyzer/route.ts:113-119 | the present slots below the count, strictly increasing, each present slot listed |
| PageReviewer.PresentFilesBySlot | page_reviewer/src/app/api/analyzer/route.ts:113-119 | the files the loop reviews are, index by index, the files of the present slots in increasing slot order |
| PageReviewer.AllSlotsPresent | page_reviewer/src/app/api/analyzer/route.ts:113-119 | with every slot filled, the files are exactly slots 0..n-1 in order |
| PageReviewer.MissingSlotsSkipped | page_reviewer/src/app/api/analyzer/route.ts:116-119 | empty slots contribute nothing |
| PageReviewer.ReviewAll | page_reviewer/src/app/api/analyzer/route.ts:113-165 | when everything is reviewed there is one analysis per file |
| PageReviewer.ReviewAllMeaning | page_reviewer/src/app/api/analyzer/route.ts:113-165 | either every file was reviewed, its analysis at its index, or some file was rejected after all earlier ones were reviewed, and its status and message are the outcome |
| PageReviewer.FirstRejectionAborts | page_reviewer/src/app/api/analyzer/route.ts:121-164 | the first rejected file decides the response |
| PageReviewer.NoRejectionReviewsAll | page_reviewer/src/app/api/analyzer/route.ts:155-156 | with no rejection every file's analysis is kept, in order |
| PageReviewer.Post | page_reviewer/src/app/api/analyzer/route.ts:99-181 | a zero count gets the 400 "No files" message; a success has at most one analysis per slot and reports the count as written |
| PageReviewer.NoSlotsVisited | page_reviewer/src/app/api/analyzer/route.ts:103-113 | a negative or NaN count succeeds with no analyses, whatever the files |
| PageReviewer.FirstBadUploadAborts | page_reviewer/src/app/api/analyzer/route.ts:121-136 | the first present non-PDF or oversize file aborts with its 400 message |
| PageReviewer.ReviewLoop | page_reviewer/src/app/api/analyzer/route.ts:103-181 | the loop as written, with its early returns, computes the route's response |
| PageReviewer.ReviewSlots | page_reviewer/src/app/api/analyzer/route.ts:111-165 | visiting the slots in order with an early exit gives the same outcome as reviewing the present files |
| PageReviewer.NextSlot | page_reviewer/src/app/api/analyzer/route.ts:113-165 | one loop turn: a missing slot or an earlier abort changes nothing; a present file either aborts or appends its analysis |
| PageReviewer.AbortedStays | page_reviewer/src/app/api/analyzer/route.ts:113-165 | once aborted, later slots never change the outcome |

## Left out

- The Gemini SDK, pdf-parse, `new PublicKey`, the RPC connection, `JSON.parse` and `JSON.stringify` are oracles, passed in as function-valued fields.
- Floating-point arithmetic and `toFixed(4)` are left out; the balance text and `${amount}` come from the chain oracle.
- HTTP and multipart parsing, `request.json()`, and the outer `catch` that turns their failures into a 500 are left out.
- A JSON `prompt` that is not a string, a non-string `address` argument, and a `file_0` entry that is a string are left out; the model takes them as strings or as files.
- `parseInt` itself is not modelled: the form count arrives already parsed, as an integer or NaN.
- Only ASCII letters change case. For the `.pdf` test and the `i` flag this is exact, since no other character lowercases to an ASCII letter used there.
- Strings are sequences of characters, not of UTF-16 code units; the 3000- and 30000-character cuts count characters.
- A thrown value that is not an `Error` ("Unknown error" in the messages) is left out: every failure carries a message.
- The API key and environment checks at module load, logging, and the `GET` handlers (405) are left out.
- The commented-out `combinedAnalysisAlt` block and the commented form fields are not modelled.
- The `!file` check inside the whitepaper branch (main route line 638) can never fire, so it has no branch.
- The initial "I'm not sure how to respond" answer is always overwritten before the response is built, so it never reaches a response.
- `tools` declares only getSolBalance and getTokenHoldings, while the dispatch also handles getSolanaAccountInfo. The model takes whatever name the reply carries.
- The reply clean-up makes a single `JSON.parse` attempt, as the code does. There is no fallback ladder and no stripping of non-ASCII characters.
- SolanaRpc.GetSolanaAccountInfo: the lines after the account header (balance, executable flag, rent epoch, owner, parsed program data, raw data) come from an oracle, so only the header line and the error and not-found cases are stated.
- SolanaRpc.GetTokenHoldings: the configuration message is stated for failures of the token-account RPC; that `new PublicKey` never throws an "unrecognized Token program id" message is modelled by a fixed invalid-key message.
- Text.DigitsValueOfNatToString: `parseInt` returns a double, so in the source the round trip is exact only for counts up to 2^53 (9007199254740992); the model reads digits as an exact integer of any size.
- PageReviewer.LeadingDigitsRead: the value is exact; the source's `parseInt` rounds a digit run whose value exceeds 2^53 to the nearest double.
- PageReviewer.LeadingCountRoundTrip: holds in the source only for counts up to 2^53, for the same rounding.
- PageReviewer.LeadingCountsRead: likewise exact in the model, and in the source only for counts up to 2^53.
- PageReviewer.ExtractCountIsLeftmostMatch: the count is the exact value of the digit run; the source's `parseInt` rounds a run whose value exceeds 2^53 to the nearest double.
- PageReviewer.MatchAtStart: likewise states the exact value of the digit run, which the source's `parseInt` rounds above 2^53.
- PageReviewer.SlotCount: a count above 2^53 arrives rounded by `parseInt`, and from 2^53 on the source's loop counter stops growing (`i++` leaves it unchanged), so the source's loop never ends; the model visits exactly the given number of slots.

=== FILE: analyzer_route.dfy ===
/** `POST` of the main analyzer route: request validation, the whitepaper
    branch (upload checks, text extraction, analysis prompt, reply
    clean-up) and the chat branch. HTTP parsing is done by the framework;
    the request arrives as its parsed fields. */
module AnalyzerRoute {
  import opened Text
  import opened Effects
  import opened Upload
  import opened Gemini
  import opened SolanaRpc
  import opened ReplyCleanup
  import opened ToolDispatch

  /** The parsed request: a multipart form (`fileCount` after `parseInt`,
      `prompt` with a missing field read as "", and `file_0` if present) or
      a JSON body whose `prompt` may be missing. */
  datatype Request =
    | Multipart(fileCount: FormCount, prompt: string, file: Option<FileInfo>)
    | JsonBody(bodyPrompt: Option<string>)

  /** Everything outside the route: `extractTextFromPDF` (None when
      pdf-parse fails), the model, `JSON.parse` acceptance, the chain and
      `JSON.stringify(x, null, 2)` of a string. */
  datatype Services = Services(
    extractText: FileInfo -> Option<string>,
    model: Model,
    parses: string -> bool,
    chain: Chain,
    stringify: string -> string)

  /** The JSON response: a failure with its HTTP status, or a success with
      its optional message, data and type. */
  datatype Response =
    | Failure(status: nat, error: string)
    | Success(message: Option<string>, data: ProjectData, kind: ResponseType)

  const NoInputMessage :=
    "Please provide either a PDF file for analysis or a prompt for general blockchain questions."
  const InvalidRequestMessage := "Invalid request format"
  const NoResponseMessage := "No response from Gemini"
  const DefaultQuestion := "Analyze this whitepaper"

  function ChatFailedMessage(reason: string): string {
    "Failed to process chat: " + reason
  }

  function AnalyzedMessage(name: string): string {
    "Successfully analyzed " + name
  }

  /** `fileCount`, `prompt` and `file` as the route holds them after
      reading the body; a JSON body leaves the count at 0 and the file null. */
  function CountOf(req: Request): FormCount {
    if req.Multipart? then req.fileCount else Count(0)
  }

  function PromptOf(req: Request): Option<string> {
    if req.Multipart? then Some(req.prompt) else req.bodyPrompt
  }

  function FileOf(req: Request): Option<FileInfo> {
    if req.Multipart? then req.file else None
  }

  /** `!prompt?.trim()`. */
  predicate PromptMissing(prompt: Option<string>) {
    prompt.None? || Trim(prompt.value) == ""
  }

  /** The analysis prompt: the question (or a default when it is empty),
      the file name and the first 3000 characters of the text, followed by
      the fixed answer-format instructions. */
  const WhitepaperPreamble :=
    "You are an expert Blockchain Expert, an Agent for DYOR on the Solana Blockchain. "
    + "Analyze the following whitepaper and provide answers based on the context provided.\n\n"
  const WhitepaperInstructions :=
    "IMPORTANT: You must respond with ONLY valid JSON in the exact format below. "
    + "Do not include any markdown formatting, code blocks, or additional text outside the JSON structure.\n\n"
    + "{\n  \"answer\": \"Your detailed analysis here with just one or two emojis and symbols\",\n"
    + "  \"analysis\": \"Your whitepaper analysis focusing on investment worthiness\"\n}\n\n"
    + "Focus on determining if the project is investment worthy and why. "
    + "Keep answer brief, not more than 2000 words. "
    + "Use symbols and emojis within the JSON string values for better readability."
  function QuestionLine(question: string): string {
    "Context/Question: " + (if question == "" then DefaultQuestion else question) + "\n"
  }
  const DocumentLead := "Document: \""
  const ContentLead := "\"\nContent:\n"
  const DocumentTail := "\n\n" + WhitepaperInstructions

  /** The file part of the prompt names the file and carries the excerpt. */
  function DocumentSection(name: string, text: string): (r: string)
    ensures Contains(r, name) && Contains(r, Take(text, 3000))
  {
    TemplateCarries(DocumentLead, name, ContentLead, Take(text, 3000), DocumentTail);
    DocumentLead + name + ContentLead + Take(text, 3000) + DocumentTail
  }

  /** The prompt opens with the fixed preamble and carries the file name
      and the first 3000 characters of the text. */
  function WhitepaperPrompt(question: string, name: string, text: string): (r: string)
    ensures StartsWith(r, WhitepaperPreamble)
    ensures Contains(r, name) && Contains(r, Take(text, 3000))
  {
    var line, doc := QuestionLine(question), DocumentSection(name, text);
    ThirdPartCarries(WhitepaperPreamble, line, doc, name);
    ThirdPartCarries(WhitepaperPreamble, line, doc, Take(text, 3000));
    WhitepaperPreamble + line + doc
  }

  /** Case 1, from the upload checks on. `extracted` is what
      `extractTextFromPDF` yields for the file (None when it throws). */
  function AnalyzeFile(file: FileInfo, question: string, extracted: Option<string>, svc: Services): (r: Response)
    ensures CheckUpload(file).Some? ==> r == Failure(400, CheckUpload(file).value)
    ensures r.Success? ==> r.kind == WhitepaperAnalysis && r.message == Some(AnalyzedMessage(file.name))
    ensures r.Failure? ==> r.status in {400, 500}
    ensures r.Failure? && r.status == 400 ==>
              || CheckUpload(file) == Some(r.error)
              || (&& CheckUpload(file).None? && extracted.Some? && IsBlank(extracted.value)
                  && r.error == NoTextMessage(file.name))
    ensures CheckUpload(file).None? && extracted.Some? && IsBlank(extracted.value) ==>
              r == Failure(400, NoTextMessage(file.name))
    ensures CheckUpload(file).None? && extracted.None? ==>
              r == Failure(500, ProcessFailedMessage(file.name, ExtractFailed))
    ensures CheckUpload(file).None? && extracted.Some? && !IsBlank(extracted.value)
            && svc.model.generateText(WhitepaperPrompt(question, file.name, extracted.value)).Thrown? ==>
              r == Failure(500, ProcessFailedMessage(file.name,
                     ApiError(svc.model.generateText(WhitepaperPrompt(question, file.name, extracted.value)).message)))
    ensures CheckUpload(file).None? && extracted.Some? && !IsBlank(extracted.value)
            && svc.model.generateText(WhitepaperPrompt(question, file.name, extracted.value)).Ok? ==>
              r == Success(Some(AnalyzedMessage(file.name)),
                           NormalizeAnalysis(
                             svc.model.generateText(WhitepaperPrompt(question, file.name, extracted.value)).value,
                             svc.parses),
                           WhitepaperAnalysis)
    ensures r.Success? ==>
              && extracted.Some? && !IsBlank(extracted.value)
              && svc.model.generateText(WhitepaperPrompt(question, file.name, extracted.value)).Ok?
              && r.data == NormalizeAnalysis(
                   svc.model.generateText(WhitepaperPrompt(question, file.name, extracted.value)).value, svc.parses)
  {
    TrimEmptyIffBlank(if extracted.Some? then extracted.value else "");
    match CheckUpload(file)
    case Some(rejection) => Failure(400, rejection)
    case None =>
      match extracted
      case None => Failure(500, ProcessFailedMessage(file.name, ExtractFailed))
      case Some(text) =>
        if Trim(text) == "" then Failure(400, NoTextMessage(file.name))
        else match CallForAnalysis(svc.model, WhitepaperPrompt(question, file.name, text))
          case Thrown(m) => Failure(500, ProcessFailedMessage(file.name, m))
          case Ok(reply) =>
            Success(Some(AnalyzedMessage(file.name)), NormalizeAnalysis(reply, svc.parses), WhitepaperAnalysis)
  }

  /** The response for how the chat branch ended. */
  function ChatResponse(outcome: ChatOutcome): (r: Response)
    ensures r.Success? <==> outcome.Answered?
    ensures r.Failure? ==> r.status == 500
    ensures r.Success? ==> r.message.None? && r.data == Fields(outcome.answer, None) && r.kind == outcome.kind
    ensures outcome.NoResponse? ==> r == Failure(500, NoResponseMessage)
    ensures outcome.ChatFailed? ==> r == Failure(500, ChatFailedMessage(outcome.message))
  {
    match outcome
    case Answered(answer, kind) => Success(None, Fields(answer, None), kind)
    case NoResponse => Failure(500, NoResponseMessage)
    case ChatFailed(m) => Failure(500, ChatFailedMessage(m))
  }

  /** The route: reject a request with neither a count nor a prompt; take
      the whitepaper branch for a positive count with a file; else chat if
      there is a prompt; else reject the format. */
  function Post(req: Request, svc: Services): (r: Response)
    ensures r.Failure? ==> r.status in {400, 500}
    ensures r.Success? && r.kind == WhitepaperAnalysis ==>
              CountOf(req).IsPositive() && FileOf(req).Some?
  {
    var count, prompt, file := CountOf(req), PromptOf(req), FileOf(req);
    if count.IsZero() && PromptMissing(prompt) then Failure(400, NoInputMessage)
    else if count.IsPositive() && file.Some? then
      AnalyzeFile(file.value, if prompt.Some? then prompt.value else "",
                  svc.extractText(file.value), svc)
    else if !PromptMissing(prompt) then
      ChatResponse(HandleChat(prompt.value, svc.model, svc.chain, svc.stringify))
    else Failure(400, InvalidRequestMessage)
  }

  /** A positive count with a file hands the file, the prompt (empty when
      absent) and the extracted text to the whitepaper branch. */
  lemma WhitepaperBranchEntered(req: Request, svc: Services)
    requires CountOf(req).IsPositive() && FileOf(req).Some?
    ensures Post(req, svc) ==
              AnalyzeFile(FileOf(req).value, if PromptOf(req).Some? then PromptOf(req).value else "",
                          svc.extractText(FileOf(req).value), svc)
  {
  }

  /** A request with no count and an empty or white-space-only prompt is
      refused with the "Please provide" message, whatever the services
      would do: nothing is extracted and no model is called. */
  lemma BlankRequestRejected(req: Request, svc: Services, other: Services)
    requires CountOf(req).IsZero()
    requires PromptOf(req).None? || IsBlank(PromptOf(req).value)
    ensures Post(req, svc) == Failure(400, NoInputMessage)
    ensures Post(req, svc) == Post(req, other)
  {
    if PromptOf(req).Some? {
      TrimEmptyIffBlank(PromptOf(req).value);
    }
  }

  /** ... and that message is given for no other request. */
  lemma NoInputOnlyWhenBlank(req: Request, svc: Services)
    requires Post(req, svc) == Failure(400, NoInputMessage)
    ensures CountOf(req).IsZero()
    ensures PromptOf(req).None? || IsBlank(PromptOf(req).value)
  {
    var count, prompt, file := CountOf(req), PromptOf(req), FileOf(req);
    // The upload and no-text messages end in "d." or "it", this one in "s.".
    assert NoInputMessage[|NoInputMessage| - 2] == 's';
    if file.Some? {
      var name := file.value.name;
      assert NotPdfMessage(name)[|NotPdfMessage(name)| - 2] == 'd';
      assert TooLargeMessage(name)[|TooLargeMessage(name)| - 2] == 'i';
      assert NoTextMessage(name)[|NoTextMessage(name)| - 2] == 'd';
    }
    if !(count.IsZero() && PromptMissing(prompt)) {
      assert false;
    }
    if prompt.Some? {
      TrimEmptyIffBlank(prompt.value);
    }
  }

  /** A count that is NaN, or positive without a `file_0`, with a blank
      prompt falls through every branch to "Invalid request format". */
  lemma UnusableCountRejected(count: FormCount, prompt: string, file: Option<FileInfo>, svc: Services)
    requires !count.IsZero() && !(count.IsPositive() && file.Some?)
    requires IsBlank(prompt)
    ensures Post(Multipart(count, prompt, file), svc) == Failure(400, InvalidRequestMessage)
  {
    TrimEmptyIffBlank(prompt);
  }

  /** A file sent with a count that is not positive is ignored: a
      non-blank prompt goes to chat as if there were no file. */
  lemma FileIgnoredWithoutCount(count: FormCount, prompt: string, f: FileInfo, svc: Services)
    requires !count.IsPositive()
    requires !IsBlank(prompt)
    ensures Post(Multipart(count, prompt, Some(f)), svc) == Post(Multipart(count, prompt, None), svc)
    ensures Post(Multipart(count, prompt, Some(f)), svc).Success? ==>
              Post(Multipart(count, prompt, Some(f)), svc).kind != WhitepaperAnalysis
  {
    TrimEmptyIffBlank(prompt);
  }

  /** A file that fails the upload checks is refused with that check's
      message before it is read: type first, then size. */
  lemma UploadRejectedFirst(count: FormCount, prompt: string, f: FileInfo, svc: Services)
    requires count.IsPositive()
    requires !IsPdf(f) || f.size > MaxFileSize
    ensures !IsPdf(f) ==> Post(Multipart(count, prompt, Some(f)), svc) == Failure(400, NotPdfMessage(f.name))
    ensures IsPdf(f) ==> Post(Multipart(count, prompt, Some(f)), svc) == Failure(400, TooLargeMessage(f.name))
  {
  }

  /** White-space-only extracted text is refused with the "Could not
      extract text" message naming the file. */
  lemma BlankTextRejected(f: FileInfo, question: string, text: string, svc: Services)
    requires CheckUpload(f).None?
    requires IsBlank(text)
    ensures AnalyzeFile(f, question, Some(text), svc) == Failure(400, NoTextMessage(f.name))
  {
    TrimEmptyIffBlank(text);
  }

  /** Only the first 3000 characters of the extracted text matter: two
      non-blank texts that agree on them get the same response. */
  lemma OnlyFirst3000Matter(f: FileInfo, question: string, t1: string, t2: string, svc: Services)
    requires !IsBlank(t1) && !IsBlank(t2)
    requires Take(t1, 3000) == Take(t2, 3000)
    ensures AnalyzeFile(f, question, Some(t1), svc) == AnalyzeFile(f, question, Some(t2), svc)
  {
    SameExcerptSamePrompt(question, f.name, t1, t2);
    TrimEmptyIffBlank(t1);
    TrimEmptyIffBlank(t2);
  }

  /** The prompt sees the text only through its first 3000 characters. */
  lemma SameExcerptSamePrompt(question: string, name: string, t1: string, t2: string)
    requires Take(t1, 3000) == Take(t2, 3000)
    ensures WhitepaperPrompt(question, name, t1) == WhitepaperPrompt(question, name, t2)
  {
    assert DocumentSection(name, t1) == DocumentSection(name, t2);
  }

  /** An empty question is replaced by the default one in the prompt. */
  lemma EmptyQuestionDefaults(name: string, text: string)
    ensures Contains(WhitepaperPrompt("", name, text), "Context/Question: " + DefaultQuestion + "\n")
  {
    ContainsMiddle(WhitepaperPreamble, QuestionLine(""), DocumentSection(name, text));
  }

  /** A non-empty question is passed to the model verbatim. */
  lemma QuestionKept(question: string, name: string, text: string)
    requires question != ""
    ensures Contains(WhitepaperPrompt(question, name, text), question)
  {
    ContainsMiddle("Context/Question: ", question, "\n");
    ContainsMiddle(WhitepaperPreamble, QuestionLine(question), DocumentSection(name, text));
    ContainsTransitive(WhitepaperPrompt(question, name, text), QuestionLine(question), question);
  }

  /** A reply the parser refuses still yields a success of type
      'whitepaper_analysis', carrying the reply (or the fixed text when it
      is empty) and "Formatting error.". */
  lemma UnparsedReplyStillSucceeds(f: FileInfo, question: string, text: string, svc: Services)
    requires CheckUpload(f).None? && !IsBlank(text)
    requires var reply := svc.model.generateText(WhitepaperPrompt(question, f.name, text));
             reply.Ok? && !svc.parses(CleanReply(reply.value))
    ensures var reply := svc.model.generateText(WhitepaperPrompt(question, f.name, text)).value;
            AnalyzeFile(f, question, Some(text), svc)
            == Success(Some(AnalyzedMessage(f.name)),
                       Fields(if reply == "" then UnformattedAnswer else reply, Some(FormattingError)),
                       WhitepaperAnalysis)
  {
    TrimEmptyIffBlank(text);
  }

  /** A model or extraction failure in the file branch is a 500 naming the
      file and the reason. */
  lemma FileFailuresName(f: FileInfo, question: string, extracted: Option<string>, svc: Services)
    requires CheckUpload(f).None?
    ensures extracted.None? ==>
              AnalyzeFile(f, question, extracted, svc) == Failure(500, ProcessFailedMessage(f.name, ExtractFailed))
    ensures extracted.Some? && !IsBlank(extracted.value) &&
            svc.model.generateText(WhitepaperPrompt(question, f.name, extracted.value)).Thrown? ==>
              AnalyzeFile(f, question, extracted, svc)
              == Failure(500, ProcessFailedMessage(f.name,
                   ApiError(svc.model.generateText(WhitepaperPrompt(question, f.name, extracted.value)).message)))
  {
    TrimEmptyIffBlank(if extracted.Some? then extracted.value else "");
  }

  /** A non-blank prompt without a usable file is answered by the chat
      branch, whose successes never carry a message. */
  lemma PromptGoesToChat(req: Request, svc: Services)
    requires PromptOf(req).Some? && !IsBlank(PromptOf(req).value)
    requires !(CountOf(req).IsPositive() && FileOf(req).Some?)
    ensures Post(req, svc) == ChatResponse(HandleChat(PromptOf(req).value, svc.model, svc.chain, svc.stringify))
    ensures Post(req, svc).Success? ==> Post(req, svc).message.None?
  {
    TrimEmptyIffBlank(PromptOf(req).value);
  }
}

=== FILE: effects.dfy ===
/** The two shapes external effects take in this model: a value that may be
    absent (`null`/`undefined`) and a call that may throw. */
module Effects {

  datatype Option<T> = None | Some(value: T)

  /** An external call (model, parser or RPC) that either answers or throws
      an error carrying a message. */
  datatype Reply<T> = Ok(value: T) | Thrown(message: string)
}

=== FILE: gemini.dfy ===
/** The generative-model side of the main analyzer route: the shape of a
    tool-calling reply and the two wrappers that turn any SDK failure into
    a "Gemini API error" message. The SDK itself is an oracle. */
module Gemini {
  import opened Effects

  /** `functionCall` of a reply part: the tool name, the `address` argument
      ("" when absent or empty, both falsy) and `JSON.stringify(args)`. */
  datatype FunctionCall = FunctionCall(name: string, address: string, argsJson: string)

  /** One reply part; `text` is "" when absent or empty (both falsy). */
  datatype Part = Part(text: string, call: Option<FunctionCall>)

  /** `candidate.content`, whose `parts` list may be missing. */
  datatype Content = Content(parts: Option<seq<Part>>)

  /** A reply candidate; a blocked candidate carries no content. */
  datatype Candidate = Candidate(content: Option<Content>)

  /** The SDK: `chat.sendMessage` with the tool declarations (its
      `candidates`, a missing list read as empty) and `generateContent`
      followed by `response.text()`. A throw carries the SDK's message. */
  datatype Model = Model(
    sendWithTools: string -> Reply<seq<Candidate>>,
    generateText: string -> Reply<string>)

  const ApiErrorPrefix := "Gemini API error: "

  /** A failure message as both wrappers rethrow it. */
  function ApiError(message: string): (r: string)
    ensures |r| == |ApiErrorPrefix| + |message|
    ensures r[..|ApiErrorPrefix|] == ApiErrorPrefix && r[|ApiErrorPrefix|..] == message
  {
    ApiErrorPrefix + message
  }

  /** `callGeminiWithTools`: the SDK's candidates, or its failure rewrapped. */
  function CallWithTools(model: Model, prompt: string): (r: Reply<seq<Candidate>>)
    ensures r.Ok? <==> model.sendWithTools(prompt).Ok?
    ensures r.Ok? ==> r.value == model.sendWithTools(prompt).value
    ensures r.Thrown? ==> r.message == ApiError(model.sendWithTools(prompt).message)
  {
    match model.sendWithTools(prompt)
    case Ok(candidates) => Ok(candidates)
    case Thrown(m) => Thrown(ApiError(m))
  }

  /** `callGeminiForAnalysis`: the reply text, or the failure rewrapped. */
  function CallForAnalysis(model: Model, prompt: string): (r: Reply<string>)
    ensures r.Ok? <==> model.generateText(prompt).Ok?
    ensures r.Ok? ==> r.value == model.generateText(prompt).value
    ensures r.Thrown? ==> r.message == ApiError(model.generateText(prompt).message)
  {
    match model.generateText(prompt)
    case Ok(text) => Ok(text)
    case Thrown(m) => Thrown(ApiError(m))
  }
}

=== FILE: page_reviewer.dfy ===
/** `POST` of the page-reviewer analyzer: every uploaded slot `file_0` ..
    `file_{fileCount-1}` is checked, its text extracted and reviewed by the
    model, and the four issue counts are read off the review by a small
    regex scanner. The first failing file aborts the request. */
module PageReviewer {
  import opened Text
  import opened Effects
  import opened Upload

  // ---------------------------------------------------------------------
  // The count scanner: `text.match(/(\d+)\s*(?:first|second)/gi)`, then the
  // digits of the first match read by `parseInt`.

  /** The two alternatives of one count's keyword group (lower case). */
  datatype Keywords = Keywords(first: string, second: string)

  const FactualKeywords := Keywords("factual", "inconsistenc")
  const CitationKeywords := Keywords("citation", "reference")
  const StructuralKeywords := Keywords("structural", "organization")
  const ImprovementKeywords := Keywords("improvement", "suggestion")

  /** A keyword is a non-empty run of lower-case ASCII letters, so it can
      neither extend a digit run nor a white-space run. */
  predicate LowerWord(kw: string) {
    |kw| > 0 && forall i :: 0 <= i < |kw| ==> 'a' <= kw[i] <= 'z'
  }

  predicate WellFormed(kws: Keywords) {
    LowerWord(kws.first) && LowerWord(kws.second)
  }

  lemma KeywordsWellFormed()
    ensures WellFormed(FactualKeywords) && WellFormed(CitationKeywords)
    ensures WellFormed(StructuralKeywords) && WellFormed(ImprovementKeywords)
  {
    assert WellFormed(FactualKeywords);
    assert WellFormed(CitationKeywords);
    assert WellFormed(StructuralKeywords);
  }

  /** `kw` occurs at position k, ignoring ASCII letter case (the `i` flag). */
  predicate KeywordAt(s: string, k: int, kw: string) {
    0 <= k && k + |kw| <= |s| && ToLower(s[k..k + |kw|]) == kw
  }

  predicate EitherAt(s: string, k: int, kws: Keywords) {
    KeywordAt(s, k, kws.first) || KeywordAt(s, k, kws.second)
  }

  /** End of the maximal digit run starting at i. */
  function DigitRunEnd(s: string, i: nat): (e: nat)
    requires i <= |s|
    ensures i <= e <= |s|
    ensures e == |s| || !IsDigit(s[e])
    ensures forall j :: i <= j < e ==> IsDigit(s[j])
    decreases |s| - i
  {
    if i < |s| && IsDigit(s[i]) then DigitRunEnd(s, i + 1) else i
  }

  /** End of the maximal white-space run starting at i. */
  function SpaceRunEnd(s: string, i: nat): (e: nat)
    requires i <= |s|
    ensures i <= e <= |s|
    ensures e == |s| || !IsSpace(s[e])
    ensures forall j :: i <= j < e ==> IsSpace(s[j])
    decreases |s| - i
  {
    if i < |s| && IsSpace(s[i]) then SpaceRunEnd(s, i + 1) else i
  }

  /** The pattern matches at p: the greedy `\d+` and `\s*` runs cannot give
      anything back, since a keyword starts with a letter, so the match is
      the full digit run, the full white-space run, then a keyword. */
  predicate MatchAt(s: string, p: nat, kws: Keywords) {
    p < |s| && IsDigit(s[p]) && EitherAt(s, SpaceRunEnd(s, DigitRunEnd(s, p)), kws)
  }

  /** The regex read declaratively: some digits from p to e, then some
      white space up to k, then one of the keywords. */
  predicate PatternAt(s: string, p: nat, kws: Keywords) {
    exists e, k :: p < e <= k <= |s| && AllDigits(s[p..e]) && IsBlank(s[e..k]) && EitherAt(s, k, kws)
  }

  lemma LetterLedAt(s: string, k: int, kw: string)
    requires LowerWord(kw) && KeywordAt(s, k, kw)
    ensures !IsDigit(s[k]) && !IsSpace(s[k])
  {
    assert ToLower(s[k..k + |kw|])[0] == LowerChar(s[k]);
  }

  /** The scanner's match test is exactly the regex. */
  lemma MatchAtIsPattern(s: string, p: nat, kws: Keywords)
    requires WellFormed(kws)
    ensures MatchAt(s, p, kws) <==> PatternAt(s, p, kws)
  {
    if MatchAt(s, p, kws) {
      var e := DigitRunEnd(s, p);
      var k := SpaceRunEnd(s, e);
      assert AllDigits(s[p..e]) && IsBlank(s[e..k]);
    }
    if PatternAt(s, p, kws) {
      var e, k :| p < e <= k <= |s| && AllDigits(s[p..e]) && IsBlank(s[e..k]) && EitherAt(s, k, kws);
      assert !IsDigit(s[k]) && !IsSpace(s[k]) by {
        if KeywordAt(s, k, kws.first) {
          LetterLedAt(s, k, kws.first);
        } else {
          LetterLedAt(s, k, kws.second);
        }
      }
      assert forall j :: p <= j < e ==> IsDigit(s[j]) by {
        forall j | p <= j < e
          ensures IsDigit(s[j])
        {
          assert s[p..e][j - p] == s[j];
        }
      }
      assert forall j :: e <= j < k ==> IsSpace(s[j]) by {
        forall j | e <= j < k
          ensures IsSpace(s[j])
        {
          assert s[e..k][j - e] == s[j];
        }
      }
      RunEndAt(s, p, e, k);
    }
  }

  /** A digit run followed by white space and a non-digit, non-space
      character ends where the white space starts, and so does the space run. */
  lemma RunEndAt(s: string, p: nat, e: nat, k: nat)
    requires p < e <= k < |s|
    requires forall j :: p <= j < e ==> IsDigit(s[j])
    requires forall j :: e <= j < k ==> IsSpace(s[j])
    requires !IsDigit(s[k]) && !IsSpace(s[k])
    ensures DigitRunEnd(s, p) == e && SpaceRunEnd(s, e) == k
  {
    DigitRunFrom(s, p, e);
    SpaceRunFrom(s, e, k);
  }

  lemma {:induction false} DigitRunFrom(s: string, i: nat, e: nat)
    requires i <= e < |s|
    requires forall j :: i <= j < e ==> IsDigit(s[j])
    requires !IsDigit(s[e])
    ensures DigitRunEnd(s, i) == e
    decreases e - i
  {
    if i < e {
      DigitRunFrom(s, i + 1, e);
    }
  }

  lemma {:induction false} SpaceRunFrom(s: string, i: nat, k: nat)
    requires i <= k < |s|
    requires forall j :: i <= j < k ==> IsSpace(s[j])
    requires !IsSpace(s[k])
    ensures SpaceRunEnd(s, i) == k
    decreases k - i
  {
    if i < k {
      SpaceRunFrom(s, i + 1, k);
    }
  }

  /** The leftmost match at or after `from`, as the regex engine finds it. */
  function FirstMatchFrom(s: string, from: nat, kws: Keywords): (r: Option<nat>)
    requires from <= |s|
    ensures r.None? <==> forall q :: from <= q < |s| ==> !MatchAt(s, q, kws)
    ensures r.Some? ==> from <= r.value < |s| && MatchAt(s, r.value, kws)
    ensures r.Some? ==> forall q :: from <= q < r.value ==> !MatchAt(s, q, kws)
    decreases |s| - from
  {
    if from == |s| then None
    else if MatchAt(s, from, kws) then Some(from)
    else FirstMatchFrom(s, from + 1, kws)
  }

  /** One count: the value of the digits of the first match, or 0 when
      nothing matches. */
  function ExtractCount(s: string, kws: Keywords): (r: nat)
    ensures (forall q :: 0 <= q < |s| ==> !MatchAt(s, q, kws)) ==> r == 0
    ensures r != 0 ==> exists q :: 0 <= q < |s| && MatchAt(s, q, kws)
  {
    match FirstMatchFrom(s, 0, kws)
    case None => 0
    case Some(p) => DigitsValue(s[p..DigitRunEnd(s, p)])
  }

  /** Read against the regex itself: no match gives 0, and otherwise the
      count is the value of the digit run of the leftmost match. */
  lemma ExtractCountIsLeftmostMatch(s: string, kws: Keywords)
    requires WellFormed(kws)
    ensures (forall q :: 0 <= q < |s| ==> !PatternAt(s, q, kws)) ==> ExtractCount(s, kws) == 0
    ensures (exists q :: 0 <= q < |s| && PatternAt(s, q, kws)) ==>
              exists p, e :: && 0 <= p < e <= |s| && PatternAt(s, p, kws)
                             && AllDigits(s[p..e]) && (e == |s| || !IsDigit(s[e]))
                             && (forall q :: 0 <= q < p ==> !PatternAt(s, q, kws))
                             && ExtractCount(s, kws) == DigitsValue(s[p..e])
  {
    forall q | 0 <= q < |s|
      ensures MatchAt(s, q, kws) <==> PatternAt(s, q, kws)
    {
      MatchAtIsPattern(s, q, kws);
    }
    var m := FirstMatchFrom(s, 0, kws);
    if m.Some? {
      var p := m.value;
      var e := DigitRunEnd(s, p);
      DigitRunDigits(s, p);
      assert ExtractCount(s, kws) == DigitsValue(s[p..e]);
      assert PatternAt(s, p, kws);
    }
  }

  /** From a digit, the greedy run is a non-empty string of digits. */
  lemma DigitRunDigits(s: string, p: nat)
    requires p < |s| && IsDigit(s[p])
    ensures var e := DigitRunEnd(s, p);
            p < e && AllDigits(s[p..e]) && (e == |s| || !IsDigit(s[e]))
  {
    var e := DigitRunEnd(s, p);
    assert AllDigits(s[p..e]) by {
      forall j | 0 <= j < e - p
        ensures IsDigit(s[p..e][j])
      {
        assert s[p..e][j] == s[p + j];
      }
    }
  }

  /** A text that opens with a number, optional white space and a keyword
      yields that number: rendering a count and scanning it back agree. */
  lemma LeadingCountRoundTrip(n: nat, ws: string, kws: Keywords, rest: string)
    requires WellFormed(kws) && IsBlank(ws)
    ensures ExtractCount(NatToString(n) + ws + kws.first + rest, kws) == n
  {
    LeadingDigitsRead(NatToString(n), ws, kws, rest);
    DigitsValueOfNatToString(n);
  }

  /** A text that opens with a digit run, white space and a keyword yields
      the value of those digits. */
  lemma LeadingDigitsRead(d: string, ws: string, kws: Keywords, rest: string)
    requires WellFormed(kws) && IsBlank(ws) && |d| > 0 && AllDigits(d)
    ensures ExtractCount(d + ws + kws.first + rest, kws) == DigitsValue(d)
  {
    var s := d + ws + kws.first + rest;
    LeadingLayout(d, ws, kws.first, rest);
    CountAt(s, 0, |d|, |d| + |ws|, kws);
    MatchAtStart(s, |d|, kws);
    assert s[0..|d|] == d;
  }

  /** Where the digits, the white space and the keyword sit in the text. */
  lemma LeadingLayout(d: string, ws: string, kw: string, rest: string)
    requires IsBlank(ws) && AllDigits(d) && LowerWord(kw)
    ensures var s := d + ws + kw + rest;
            && (forall j :: 0 <= j < |d| ==> IsDigit(s[j]))
            && (forall j :: |d| <= j < |d| + |ws| ==> IsSpace(s[j]))
            && KeywordAt(s, |d| + |ws|, kw)
  {
    var s := d + ws + kw + rest;
    var k := |d| + |ws|;
    assert s[k..k + |kw|] == kw;
    LowerKeyword(kw);
    forall j | 0 <= j < |d|
      ensures IsDigit(s[j])
    {
      assert s[j] == d[j];
    }
    forall j | |d| <= j < k
      ensures IsSpace(s[j])
    {
      assert s[j] == ws[j - |d|];
    }
  }

  /** A match at the very start is the first one. */
  lemma MatchAtStart(s: string, e: nat, kws: Keywords)
    requires MatchAt(s, 0, kws) && DigitRunEnd(s, 0) == e
    ensures ExtractCount(s, kws) == DigitsValue(s[0..e])
  {
    assert FirstMatchFrom(s, 0, kws) == Some(0);
  }

  /** Digits from p to e, white space from e to k and the first keyword
      at k: the scanner matches at p and reads exactly those digits. */
  lemma CountAt(s: string, p: nat, e: nat, k: nat, kws: Keywords)
    requires WellFormed(kws) && p < e <= k && KeywordAt(s, k, kws.first)
    requires forall j :: p <= j < e ==> IsDigit(s[j])
    requires forall j :: e <= j < k ==> IsSpace(s[j])
    ensures MatchAt(s, p, kws) && DigitRunEnd(s, p) == e
  {
    LetterLedAt(s, k, kws.first);
    RunEndAt(s, p, e, k);
  }

  /** A keyword made of lower-case letters is its own lower case. */
  lemma LowerKeyword(kw: string)
    requires LowerWord(kw)
    ensures ToLower(kw) == kw
  {
  }

  /** A text without any digit yields 0. */
  lemma NoDigitsNoCount(s: string, kws: Keywords)
    requires forall i :: 0 <= i < |s| ==> !IsDigit(s[i])
    ensures ExtractCount(s, kws) == 0
  {
  }

  /** The four counts and the unchanged review text. */
  datatype Analysis = Analysis(
    factualInconsistencies: nat,
    citationIssues: nat,
    structuralRecommendations: nat,
    improvements: nat,
    details: string)

  /** The result of `analyzeDocument` once the model has answered. */
  function AnalysisOf(review: string): (r: Analysis)
    ensures r.details == review
    ensures (forall i :: 0 <= i < |review| ==> !IsDigit(review[i])) ==>
              r.factualInconsistencies == 0 && r.citationIssues == 0
              && r.structuralRecommendations == 0 && r.improvements == 0
  {
    Analysis(ExtractCount(review, FactualKeywords), ExtractCount(review, CitationKeywords),
             ExtractCount(review, StructuralKeywords), ExtractCount(review, ImprovementKeywords), review)
  }

  /** A review that opens with "<n> factual ...", "<n> citation ...",
      "<n> structural ..." or "<n> improvement ..." reports n in the
      matching field. */
  lemma LeadingCountsRead(n: nat, ws: string, rest: string)
    requires IsBlank(ws)
    ensures AnalysisOf(NatToString(n) + ws + "factual" + rest).factualInconsistencies == n
    ensures AnalysisOf(NatToString(n) + ws + "citation" + rest).citationIssues == n
    ensures AnalysisOf(NatToString(n) + ws + "structural" + rest).structuralRecommendations == n
    ensures AnalysisOf(NatToString(n) + ws + "improvement" + rest).improvements == n
  {
    KeywordsWellFormed();
    LeadingCountRoundTrip(n, ws, FactualKeywords, rest);
    LeadingCountRoundTrip(n, ws, CitationKeywords, rest);
    LeadingCountRoundTrip(n, ws, StructuralKeywords, rest);
    LeadingCountRoundTrip(n, ws, ImprovementKeywords, rest);
  }

  // ---------------------------------------------------------------------
  // One file.

  const ReviewIntro :=
    "\n    You are an expert academic peer reviewer. Analyze the following research document "
    + "and provide a comprehensive analysis focusing on:\n\n"
    + "    1. Factual inconsistencies or contradictions\n"
    + "    2. Citation and reference issues\n"
    + "    3. Structural and organizational recommendations\n"
    + "    4. Areas for improvement in clarity, methodology, or argumentation\n\n"
    + "    Document: \""

  /** The template goes on after the embedded text; the code comment on
      that line sits inside the template literal and is sent as well. */
  const ReviewRequest :=
    " // Limit content to avoid token limits\n    \n"
    + "    Please provide:\n"
    + "    - A count of major factual inconsistencies found\n"
    + "    - A count of citation/reference issues\n"
    + "    - A count of structural recommendations\n"
    + "    - A count of improvement suggestions\n"
    + "    - Detailed analysis explaining your findings\n    \n"
    + "    Format your response as a structured analysis with clear sections "
    + "and specific examples where possible.\n    "

  const ReviewContentLead := "\"\n    \n    Content:\n    "

  /** The review prompt opens with the fixed instructions and carries the
      file name and the first 30000 characters of the text. */
  function ReviewPrompt(name: string, text: string): (r: string)
    ensures StartsWith(r, ReviewIntro)
    ensures Contains(r, name) && Contains(r, Take(text, 30000))
  {
    TemplateCarries(ReviewIntro, name, ReviewContentLead, Take(text, 30000), ReviewRequest);
    ReviewIntro + name + ReviewContentLead + Take(text, 30000) + ReviewRequest
  }

  /** What `analyzeDocument` rethrows for any model failure. */
  const AnalyzeFailed := "Failed to analyze document with AI"

  datatype FileResult = Reviewed(analysis: Analysis) | Rejected(status: nat, error: string)

  /** The body of the loop for a present file: the upload checks, the text
      (`extracted`, None when pdf-parse fails), then the model's review
      (`generate`, the SDK's reply text or failure). */
  function ReviewFile(f: FileInfo, extracted: Option<string>, generate: string -> Reply<string>): (r: FileResult)
    ensures CheckUpload(f).Some? ==> r == Rejected(400, CheckUpload(f).value)
    ensures r.Rejected? ==> r.status in {400, 500} && Contains(r.error, f.name)
    ensures r.Rejected? && r.status == 400 ==>
              CheckUpload(f) == Some(r.error) || (extracted.Some? && IsBlank(extracted.value))
    ensures CheckUpload(f).None? && extracted.Some? && !IsBlank(extracted.value)
            && generate(ReviewPrompt(f.name, extracted.value)).Ok? ==>
              r == Reviewed(AnalysisOf(generate(ReviewPrompt(f.name, extracted.value)).value))
    ensures r.Reviewed? ==>
              && extracted.Some? && generate(ReviewPrompt(f.name, extracted.value)).Ok?
              && r.analysis.details == generate(ReviewPrompt(f.name, extracted.value)).value
    ensures CheckUpload(f).None? && extracted.None? ==>
              r == Rejected(500, ProcessFailedMessage(f.name, ExtractFailed))
    ensures CheckUpload(f).None? && extracted.Some? && !IsBlank(extracted.value)
            && generate(ReviewPrompt(f.name, extracted.value)).Thrown? ==>
              r == Rejected(500, ProcessFailedMessage(f.name, AnalyzeFailed))
  {
    match CheckUpload(f)
    case Some(rejection) => Rejected(400, rejection)
    case None =>
      match extracted
      case None =>
        MessagesNameFile(f.name, ExtractFailed);
        Rejected(500, ProcessFailedMessage(f.name, ExtractFailed))
      case Some(text) =>
        TrimEmptyIffBlank(text);
        MessagesNameFile(f.name, AnalyzeFailed);
        if Trim(text) == "" then Rejected(400, NoTextMessage(f.name))
        else
          var reply := generate(ReviewPrompt(f.name, text));
          if reply.Thrown? then Rejected(500, ProcessFailedMessage(f.name, AnalyzeFailed))
          else Reviewed(AnalysisOf(reply.value))
  }

  /** White-space-only text is refused with the message naming the file. */
  lemma BlankTextRejected(f: FileInfo, text: string, generate: string -> Reply<string>)
    requires CheckUpload(f).None? && IsBlank(text)
    ensures ReviewFile(f, Some(text), generate) == Rejected(400, NoTextMessage(f.name))
  {
    TrimEmptyIffBlank(text);
  }

  /** Only the first 30000 characters of a text reach the model. */
  lemma OnlyFirst30000Matter(f: FileInfo, t1: string, t2: string, generate: string -> Reply<string>)
    requires !IsBlank(t1) && !IsBlank(t2)
    requires Take(t1, 30000) == Take(t2, 30000)
    ensures ReviewFile(f, Some(t1), generate) == ReviewFile(f, Some(t2), generate)
  {
    TrimEmptyIffBlank(t1);
    TrimEmptyIffBlank(t2);
  }

  // ---------------------------------------------------------------------
  // The loop over the slots.

  /** The parsed form: `fileCount` and the `file_<i>` entries present. */
  datatype Form = Form(fileCount: FormCount, files: map<int, FileInfo>)

  datatype Services = Services(extractText: FileInfo -> Option<string>, generate: string -> Reply<string>)

  /** How many slots the loop visits: `i < fileCount` fails at once for a
      negative count and for NaN. */
  function SlotCount(count: FormCount): (n: nat)
    ensures count.IsPositive() ==> n == count.n
    ensures !count.IsPositive() ==> n == 0
  {
    if count.Count? && count.n > 0 then count.n else 0
  }

  /** The files of slots 0 .. n-1 that are present, in slot order. */
  function PresentFiles(files: map<int, FileInfo>, n: nat): (r: seq<FileInfo>)
    ensures |r| <= n
    ensures forall k :: 0 <= k < |r| ==> r[k] in files.Values
  {
    if n == 0 then []
    else PresentFiles(files, n - 1) + (if n - 1 in files then [files[n - 1]] else [])
  }

  /** The present slots below n, in increasing order: each present slot
      appears exactly once and no absent one appears. */
  function PresentSlots(files: map<int, FileInfo>, n: nat): (r: seq<int>)
    ensures forall k :: 0 <= k < |r| ==> 0 <= r[k] < n && r[k] in files
    ensures forall k, l :: 0 <= k < l < |r| ==> r[k] < r[l]
    ensures forall i :: 0 <= i < n && i in files ==> i in r
  {
    if n == 0 then []
    else PresentSlots(files, n - 1) + (if n - 1 in files then [n - 1] else [])
  }

  /** The files the loop reviews are the files of the present slots, in
      slot order. */
  lemma {:induction false} PresentFilesBySlot(files: map<int, FileInfo>, n: nat)
    ensures |PresentFiles(files, n)| == |PresentSlots(files, n)|
    ensures forall k :: 0 <= k < |PresentSlots(files, n)| ==>
              PresentFiles(files, n)[k] == files[PresentSlots(files, n)[k]]
  {
    if n > 0 {
      PresentFilesBySlot(files, n - 1);
    }
  }

  /** With every slot present, the files are exactly slots 0 .. n-1. */
  lemma {:induction false} AllSlotsPresent(files: map<int, FileInfo>, n: nat)
    requires forall i :: 0 <= i < n ==> i in files
    ensures |PresentFiles(files, n)| == n
    ensures forall i :: 0 <= i < n ==> PresentFiles(files, n)[i] == files[i]
  {
    if n > 0 {
      AllSlotsPresent(files, n - 1);
    }
  }

  /** Missing slots are skipped without a trace. */
  lemma {:induction false} MissingSlotsSkipped(files: map<int, FileInfo>, n: nat)
    requires forall i :: 0 <= i < n ==> i !in files
    ensures PresentFiles(files, n) == []
  {
    if n > 0 {
      MissingSlotsSkipped(files, n - 1);
    }
  }

  datatype Outcome = AllReviewed(analyses: seq<Analysis>) | Aborted(status: nat, error: string)

  /** The files processed in order by `step` (the loop body); the first
      rejection stops everything and the analyses gathered before it are
      dropped. */
  function ReviewAll(fs: seq<FileInfo>, step: FileInfo -> FileResult): (r: Outcome)
    ensures r.AllReviewed? ==> |r.analyses| == |fs|
  {
    if |fs| == 0 then AllReviewed([])
    else
      match ReviewAll(fs[..|fs| - 1], step)
      case Aborted(status, error) => Aborted(status, error)
      case AllReviewed(done) =>
        match step(fs[|fs| - 1])
        case Rejected(status, error) => Aborted(status, error)
        case Reviewed(a) => AllReviewed(done + [a])
  }

  /** What the walk means: either every file was reviewed and its analysis
      sits at its index, or some file was rejected, with every file before
      it reviewed, and its status and message are the outcome's. */
  lemma {:induction false} ReviewAllMeaning(fs: seq<FileInfo>, step: FileInfo -> FileResult)
    ensures var r := ReviewAll(fs, step);
            r.AllReviewed? ==> forall k :: 0 <= k < |fs| ==> step(fs[k]) == Reviewed(r.analyses[k])
    ensures var r := ReviewAll(fs, step);
            r.Aborted? ==>
              exists j :: && 0 <= j < |fs| && step(fs[j]) == Rejected(r.status, r.error)
                          && forall k :: 0 <= k < j ==> step(fs[k]).Reviewed?
  {
    if |fs| > 0 {
      var init := fs[..|fs| - 1];
      ReviewAllMeaning(init, step);
      assert forall k :: 0 <= k < |init| ==> init[k] == fs[k];
      var before := ReviewAll(init, step);
      var r := ReviewAll(fs, step);
      if before.Aborted? {
        var j :| && 0 <= j < |init| && step(init[j]) == Rejected(before.status, before.error)
                 && forall k :: 0 <= k < j ==> step(init[k]).Reviewed?;
        assert step(fs[j]) == Rejected(r.status, r.error);
      } else if r.Aborted? {
        assert step(fs[|fs| - 1]) == Rejected(r.status, r.error);
      }
    }
  }

  /** The request is aborted exactly by the first rejected file, with that
      file's status and message. */
  lemma FirstRejectionAborts(fs: seq<FileInfo>, step: FileInfo -> FileResult, j: nat)
    requires j < |fs| && step(fs[j]).Rejected?
    requires forall k :: 0 <= k < j ==> step(fs[k]).Reviewed?
    ensures ReviewAll(fs, step) == Aborted(step(fs[j]).status, step(fs[j]).error)
  {
    ReviewAllMeaning(fs, step);
    var r := ReviewAll(fs, step);
    if r.Aborted? {
      var j' :| 0 <= j' < |fs| && step(fs[j']) == Rejected(r.status, r.error) &&
        forall k :: 0 <= k < j' ==> step(fs[k]).Reviewed?;
    }
  }

  /** When no file is rejected every file has its analysis, in order. */
  lemma NoRejectionReviewsAll(fs: seq<FileInfo>, step: FileInfo -> FileResult)
    requires forall k :: 0 <= k < |fs| ==> step(fs[k]).Reviewed?
    ensures ReviewAll(fs, step).AllReviewed?
    ensures forall k :: 0 <= k < |fs| ==> ReviewAll(fs, step).analyses[k] == step(fs[k]).analysis
  {
    ReviewAllMeaning(fs, step);
  }

  // ---------------------------------------------------------------------
  // The route.

  const NoFilesMessage := "No files provided for analysis"

  datatype Response = Failure(status: nat, error: string) | Success(data: string, analyses: seq<Analysis>)

  function SuccessMessage(count: FormCount): string {
    "Successfully analyzed " + count.Render() + " document(s)"
  }

  /** The loop body for one present file. */
  function Step(svc: Services): FileInfo -> FileResult {
    f => ReviewFile(f, svc.extractText(f), svc.generate)
  }

  /** The route: a zero count is refused; otherwise every present slot
      below the count is reviewed in order. */
  function Post(form: Form, svc: Services): (r: Response)
    ensures form.fileCount.IsZero() ==> r == Failure(400, NoFilesMessage)
    ensures r.Success? ==> |r.analyses| <= SlotCount(form.fileCount)
    ensures r.Success? ==> r.data == SuccessMessage(form.fileCount)
  {
    if form.fileCount.IsZero() then Failure(400, NoFilesMessage)
    else match ReviewAll(PresentFiles(form.files, SlotCount(form.fileCount)), Step(svc))
      case Aborted(status, error) => Failure(status, error)
      case AllReviewed(analyses) => Success(SuccessMessage(form.fileCount), analyses)
  }

  /** A negative or non-numeric count passes the zero check, visits no slot
      and reports success with no analyses, whatever files were sent. */
  lemma NoSlotsVisited(form: Form, svc: Services)
    requires form.fileCount.NotANumber? || (form.fileCount.Count? && form.fileCount.n < 0)
    ensures Post(form, svc) == Success(SuccessMessage(form.fileCount), [])
  {
  }

  /** The first present file that is not a PDF, or is too large, aborts the
      request with 400 and that file's message, once every file before it
      was reviewed; the type check comes first. */
  lemma FirstBadUploadAborts(form: Form, svc: Services, j: nat)
    requires !form.fileCount.IsZero()
    requires var fs := PresentFiles(form.files, SlotCount(form.fileCount));
             && j < |fs| && CheckUpload(fs[j]).Some?
             && forall k :: 0 <= k < j ==> Step(svc)(fs[k]).Reviewed?
    ensures var f := PresentFiles(form.files, SlotCount(form.fileCount))[j];
            && (!IsPdf(f) ==> Post(form, svc) == Failure(400, NotPdfMessage(f.name)))
            && (IsPdf(f) ==> Post(form, svc) == Failure(400, TooLargeMessage(f.name)))
  {
    var fs := PresentFiles(form.files, SlotCount(form.fileCount));
    FirstRejectionAborts(fs, Step(svc), j);
  }

  /** The loop as the route writes it: slots in index order, missing ones
      skipped, an early return on the first rejection. */
  method ReviewLoop(form: Form, svc: Services) returns (r: Response)
    ensures r == Post(form, svc)
  {
    if form.fileCount.IsZero() {
      return Failure(400, NoFilesMessage);
    }
    var outcome := ReviewSlots(form.files, SlotCount(form.fileCount), Step(svc));
    match outcome
    case Aborted(status, error) =>
      return Failure(status, error);
    case AllReviewed(analyses) =>
      return Success(SuccessMessage(form.fileCount), analyses);
  }

  /** Slots 0 to n - 1 in order, each present file handed to `step`;
      the first rejection ends the walk. */
  method ReviewSlots(files: map<int, FileInfo>, n: nat, step: FileInfo -> FileResult) returns (outcome: Outcome)
    ensures outcome == ReviewAll(PresentFiles(files, n), step)
  {
    var results: seq<Analysis> := [];
    var i := 0;
    while i < n
      invariant 0 <= i <= n
      invariant ReviewAll(PresentFiles(files, i), step) == AllReviewed(results)
    {
      NextSlot(files, step, i);
      if i in files {
        var result := step(files[i]);
        if result.Rejected? {
          AbortedStays(files, step, i + 1, n);
          return Aborted(result.status, result.error);
        }
        results := results + [result.analysis];
      }
      i := i + 1;
    }
    return AllReviewed(results);
  }

  /** One turn of the loop: a missing slot, or an earlier rejection,
      changes nothing; a present file is either rejected or appends its
      analysis. */
  lemma NextSlot(files: map<int, FileInfo>, step: FileInfo -> FileResult, i: nat)
    ensures var before := ReviewAll(PresentFiles(files, i), step);
            var after := ReviewAll(PresentFiles(files, i + 1), step);
            && (i !in files || before.Aborted? ==> after == before)
            && (i in files && before.AllReviewed? && step(files[i]).Rejected? ==>
                  after == Aborted(step(files[i]).status, step(files[i]).error))
            && (i in files && before.AllReviewed? && step(files[i]).Reviewed? ==>
                  after == AllReviewed(before.analyses + [step(files[i]).analysis]))
  {
    var fs := PresentFiles(files, i);
    var next := PresentFiles(files, i + 1);
    if i in files {
      assert next[..|next| - 1] == fs;
    } else {
      assert next == fs;
    }
  }

  /** Once a prefix of the slots is aborted, so is every longer one, with
      the same status and message. */
  lemma {:induction false} AbortedStays(files: map<int, FileInfo>, step: FileInfo -> FileResult, i: nat, n: nat)
    requires i <= n
    requires ReviewAll(PresentFiles(files, i), step).Aborted?
    ensures ReviewAll(PresentFiles(files, n), step) == ReviewAll(PresentFiles(files, i), step)
    decreases n - i
  {
    if i < n {
      NextSlot(files, step, i);
      AbortedStays(files, step, i + 1, n);
    }
  }

}

=== FILE: reply_cleanup.dfy ===
/** The clean-up the main analyzer route applies to the model's reply to a
    whitepaper prompt before its one `JSON.parse` attempt, regex by regex,
    and the fixed object it falls back to when that attempt throws. */
module ReplyCleanup {
  import opened Text
  import opened Effects

  /** "```" starts s. */
  predicate FenceAt(s: string) {
    |s| >= 3 && s[0] == '`' && s[1] == '`' && s[2] == '`'
  }

  /** "```json" starts s. */
  predicate JsonFenceAt(s: string) {
    FenceAt(s) && |s| >= 7 && s[3] == 'j' && s[4] == 's' && s[5] == 'o' && s[6] == 'n'
  }

  /** `s.replace(/```json\s*\n?|```\s*\n?/g, '')`. At each position the
      first alternative is tried before the second; `\s*` is greedy and
      already consumes any line feed, so `\n?` always matches empty. */
  function StripFences(s: string): (r: string)
    ensures |r| <= |s|
    decreases |s|
  {
    if |s| == 0 then s
    else if JsonFenceAt(s) then StripFences(TrimStart(s[7..]))
    else if FenceAt(s) then StripFences(TrimStart(s[3..]))
    else [s[0]] + StripFences(s[1..])
  }

  /** Text without a backtick passes through unchanged. */
  lemma {:induction false} StripFencesNoBacktick(s: string)
    requires '`' !in s
    ensures StripFences(s) == s
    decreases |s|
  {
    if |s| > 0 {
      assert s[0] != '`';
      assert '`' !in s[1..];
      StripFencesNoBacktick(s[1..]);
    }
  }

  lemma {:induction false} StripClosingFence(b: string)
    requires '`' !in b
    ensures StripFences(b + "```") == b
    decreases |b|
  {
    if |b| == 0 {
      assert b + "```" == "```";
      assert FenceAt("```") && !JsonFenceAt("```");
    } else {
      var s := b + "```";
      assert s[0] == b[0] != '`';
      assert s[1..] == b[1..] + "```";
      StripClosingFence(b[1..]);
    }
  }

  /** A reply wrapped as "```json", white space, body, "```" loses exactly
      the fence markers and the white space after the opening one. */
  lemma FencedBody(ws: string, b: string)
    requires IsBlank(ws) && '`' !in b
    requires b == [] || !IsSpace(b[0])
    ensures StripFences("```json" + ws + b + "```") == b
  {
    var s := "```json" + ws + b + "```";
    assert JsonFenceAt(s);
    assert s[7..] == ws + (b + "```");
    TrimStartBlankPrefix(ws, b + "```");
    StripClosingFence(b);
  }

  /** Text without a backtick in front of the rest passes through. */
  lemma {:induction false} StripFencesPrefix(a: string, t: string)
    requires '`' !in a
    ensures StripFences(a + t) == a + StripFences(t)
    decreases |a|
  {
    if |a| == 0 {
      assert a + t == t;
    } else {
      var s := a + t;
      assert s[0] == a[0] != '`';
      assert s[1..] == a[1..] + t;
      StripFencesPrefix(a[1..], t);
      assert a == [a[0]] + a[1..];
    }
  }

  /** A leading plain "```" marker goes with the white space after it. */
  lemma LeadingPlainFence(t: string, ws: string, b: string)
    requires t == "```" + ws + b && !JsonFenceAt(t)
    requires '`' !in b && IsBlank(ws)
    requires b == [] || !IsSpace(b[0])
    ensures StripFences(t) == b
  {
    assert FenceAt(t);
    assert t[3..] == ws + b;
    TrimStartBlankPrefix(ws, b);
    StripFencesNoBacktick(b);
  }

  /** A plain "```" marker anywhere is removed with the white space after
      it; only a marker that reads "```json" is treated as the other
      alternative. */
  lemma PlainFence(a: string, ws: string, b: string)
    requires '`' !in a && '`' !in b && IsBlank(ws)
    requires b == [] || !IsSpace(b[0])
    requires !JsonFenceAt("```" + ws + b)
    ensures StripFences(a + "```" + ws + b) == a + b
  {
    var t := "```" + ws + b;
    var s := a + "```" + ws + b;
    assert s == a + t;
    LeadingPlainFence(t, ws, b);
    StripFencesPrefix(a, t);
  }

  /** The first '{' comes before the last '}'. */
  predicate HasObjectSpan(s: string) {
    0 <= IndexOf(s, '{') < LastIndexOf(s, '}')
  }

  /** That is: some '{' precedes some '}'. */
  lemma ObjectSpanMeaning(s: string)
    ensures HasObjectSpan(s) <==> exists i, j :: 0 <= i < j < |s| && s[i] == '{' && s[j] == '}'
  {
    IndexOfFirst(s, '{');
    LastIndexOfLast(s, '}');
    if HasObjectSpan(s) {
      var i, j := IndexOf(s, '{'), LastIndexOf(s, '}');
      assert s[i] == '{' && s[j] == '}';
    }
  }

  /** `/\{[\s\S]*\}/` can match starting at q: a '{' with some '}' after
      it, that is, before the last '}'. */
  predicate OpensObjectAt(s: string, q: int)
    requires 0 <= q < |s|
  {
    s[q] == '{' && q < LastIndexOf(s, '}')
  }

  lemma OpensObjectAtMeaning(s: string, q: int)
    requires 0 <= q < |s|
    ensures OpensObjectAt(s, q) <==> s[q] == '{' && exists j :: q < j < |s| && s[j] == '}'
  {
    LastIndexOfLast(s, '}');
    var last := LastIndexOf(s, '}');
    if last >= 0 {
      assert s[last] == '}';
    }
  }

  /** The leftmost position at or after `from` where the object regex can start. */
  function ObjectMatchStart(s: string, from: nat): (r: Option<nat>)
    requires from <= |s|
    ensures r.Some? ==> from <= r.value < |s| && OpensObjectAt(s, r.value)
    ensures r.Some? ==> forall q :: from <= q < r.value ==> !OpensObjectAt(s, q)
    ensures r.None? ==> forall q :: from <= q < |s| ==> !OpensObjectAt(s, q)
    decreases |s| - from
  {
    if from == |s| then None
    else if OpensObjectAt(s, from) then Some(from)
    else ObjectMatchStart(s, from + 1)
  }

  /** `s.match(/\{[\s\S]*\}/)`: from the leftmost possible start p the
      greedy `[\s\S]*` runs to the end of s and backs off to the last '}',
      which lies after p. */
  function ObjectMatch(s: string): (r: Option<string>)
    ensures r.Some? ==> |r.value| >= 2 && r.value[0] == '{' && r.value[|r.value| - 1] == '}'
  {
    match ObjectMatchStart(s, 0)
    case None => None
    case Some(p) => Some(s[p..LastIndexOf(s, '}') + 1])
  }

  lemma ObjectMatchNone(s: string)
    requires ObjectMatchStart(s, 0).None?
    ensures !HasObjectSpan(s)
  {
    var i := IndexOf(s, '{');
    if 0 <= i {
      assert !OpensObjectAt(s, i);
    }
  }

  lemma ObjectMatchSome(s: string, p: nat)
    requires ObjectMatchStart(s, 0) == Some(p)
    ensures p == IndexOf(s, '{')
    ensures HasObjectSpan(s)
  {
    assert OpensObjectAt(s, p);
    forall q | 0 <= q < p
      ensures s[q] != '{'
    {
      assert !OpensObjectAt(s, q);
    }
    IndexOfUnique(s, '{', p);
  }

  lemma ObjectMatchSound(s: string)
    ensures ObjectMatch(s).Some? ==> HasObjectSpan(s)
  {
    var m := ObjectMatchStart(s, 0);
    if m.Some? {
      ObjectMatchSome(s, m.value);
    }
  }

  lemma ObjectMatchComplete(s: string)
    ensures HasObjectSpan(s) ==> ObjectMatch(s).Some?
  {
    var m := ObjectMatchStart(s, 0);
    if m.None? {
      ObjectMatchNone(s);
    }
  }

  lemma ObjectMatchSlice(s: string)
    requires ObjectMatchStart(s, 0).Some?
    ensures 0 <= IndexOf(s, '{') < LastIndexOf(s, '}')
    ensures ObjectMatch(s).value == s[IndexOf(s, '{')..LastIndexOf(s, '}') + 1]
  {
    ObjectMatchSome(s, ObjectMatchStart(s, 0).value);
  }

  /** The regex matches exactly when some '{' precedes some '}', and the
      match is the slice from the first '{' to the last '}'. */
  lemma ObjectMatchIsSpan(s: string)
    ensures ObjectMatch(s).Some? <==> HasObjectSpan(s)
    ensures ObjectMatch(s).Some? ==>
              ObjectMatch(s).value == s[IndexOf(s, '{')..LastIndexOf(s, '}') + 1]
  {
    ObjectMatchSound(s);
    ObjectMatchComplete(s);
    if ObjectMatchStart(s, 0).Some? {
      ObjectMatchSlice(s);
    }
  }

  // `s.replace(/^[^{]*/, '')`: the greedy class run stops at the first '{'
  // (or takes all of s when there is none), and that run is removed. What
  // is left is the suffix of s from its first '{', or nothing.
  function DropToOpenBrace(s: string): (r: string)
    ensures |r| <= |s| && r == s[|s| - |r|..]
    ensures r == [] <==> '{' !in s
    ensures r != [] ==> r[0] == '{'
    ensures '{' !in s[..|s| - |r|]
  {
    IndexOfFirst(s, '{');
    var i := IndexOf(s, '{');
    if i < 0 then [] else s[i..]
  }

  /** Some '}' occurs at or after q: q is not past the last '}'. */
  predicate CloseFrom(s: string, q: int)
    requires 0 <= q <= |s|
  {
    q <= LastIndexOf(s, '}')
  }

  lemma CloseFromMeaning(s: string, q: int)
    requires 0 <= q <= |s|
    ensures CloseFrom(s, q) <==> exists j :: q <= j < |s| && s[j] == '}'
  {
    LastIndexOfLast(s, '}');
    var last := LastIndexOf(s, '}');
    if last >= 0 {
      assert s[last] == '}';
    }
  }

  /** The leftmost position at or after `from` where `/[^}]*$/` matches:
      the first position from which no '}' remains. */
  function TailMatchStart(s: string, from: nat): (r: nat)
    requires from <= |s|
    ensures from <= r <= |s| && !CloseFrom(s, r)
    ensures forall q :: from <= q < r ==> CloseFrom(s, q)
    decreases |s| - from
  {
    if !CloseFrom(s, from) then from
    else TailMatchStart(s, from + 1)
  }

  /** The regex engine's leftmost match of `/[^}]*$/` starts just after
      the last '}' (at 0 when there is none). */
  lemma TailMatchIsLastClose(s: string)
    ensures TailMatchStart(s, 0) == LastIndexOf(s, '}') + 1
  {
    var p := TailMatchStart(s, 0);
    var k := LastIndexOf(s, '}');
    if p > 0 {
      assert CloseFrom(s, p - 1);
    }
  }

  /** `s.replace(/[^}]*$/, '}')`: the run after the last '}' becomes '}'.
      When s already ends in '}' that run is empty, so a '}' is added. */
  function CloseTail(s: string): (r: string)
    ensures r == s[..LastIndexOf(s, '}') + 1] + "}"
  {
    TailMatchIsLastClose(s);
    s[..TailMatchStart(s, 0)] + "}"
  }

  /** The steps after fence stripping, on the trimmed text c. */
  function SliceAndClose(c: string): (r: string)
    ensures |r| > 0 && r[|r| - 1] == '}'
    ensures r == "}" || r[0] == '{'
  {
    var m := ObjectMatch(c);
    CloseTail(DropToOpenBrace(if m.Some? then m.value else c))
  }

  /** On a slice that already runs from '{' to '}', the last two steps
      leave the slice alone and then add a '}'. */
  lemma CloseOfObject(t: string)
    requires |t| >= 2 && t[0] == '{' && t[|t| - 1] == '}'
    ensures CloseTail(DropToOpenBrace(t)) == t + "}"
  {
    IndexOfUnique(t, '{', 0);
    LastIndexOfUnique(t, '}', |t| - 1);
    assert DropToOpenBrace(t) == t;
    assert t[..|t|] == t;
  }

  /** The span runs from a '{' to a '}'. */
  lemma SpanEnds(c: string)
    requires HasObjectSpan(c)
    ensures var t := c[IndexOf(c, '{')..LastIndexOf(c, '}') + 1];
            |t| >= 2 && t[0] == '{' && t[|t| - 1] == '}'
  {
  }

  lemma SliceAndCloseSpan(c: string)
    requires HasObjectSpan(c)
    ensures SliceAndClose(c) == c[IndexOf(c, '{')..LastIndexOf(c, '}') + 1] + "}"
  {
    ObjectMatchIsSpan(c);
    SpanEnds(c);
    var sliced := c[IndexOf(c, '{')..LastIndexOf(c, '}') + 1];
    CloseOfObject(sliced);
    assert ObjectMatch(c).value == sliced;
  }

  lemma SliceAndCloseNoSpan(c: string)
    requires !HasObjectSpan(c)
    ensures SliceAndClose(c) == "}"
  {
    ObjectMatchSound(c);
    LastIndexOfLast(c, '}');
    var d := DropToOpenBrace(c);
    var i := IndexOf(c, '{');
    if i >= 0 {
      forall x | 0 <= x < |d|
        ensures d[x] != '}'
      {
        assert d[x] == c[i + x];
      }
    }
    assert LastIndexOf(d, '}') == -1;
    assert d[..0] == [];
  }

  /** The reply with both trims and the fence stripping applied. */
  function Unfenced(reply: string): string {
    Trim(StripFences(Trim(reply)))
  }

  /** What the route hands to `JSON.parse`: trim, strip fences, trim, keep the
      object match if there is one, drop what precedes the first '{', and
      replace the run after the last '}' by '}'. */
  function CleanReply(reply: string): (r: string)
    ensures |r| > 0 && r[|r| - 1] == '}'
  {
    SliceAndClose(Unfenced(reply))
  }

  /** When the unfenced reply holds a '{' before a '}', the parser receives
      the slice from the first '{' to the last '}' plus one more '}'; when it
      does not, it receives the lone "}". */
  lemma CleanReplyResult(reply: string)
    ensures var c := Unfenced(reply);
            HasObjectSpan(c) ==> CleanReply(reply) == c[IndexOf(c, '{')..LastIndexOf(c, '}') + 1] + "}"
    ensures !HasObjectSpan(Unfenced(reply)) ==> CleanReply(reply) == "}"
  {
    SliceAndCloseResult(Unfenced(reply));
  }

  lemma SliceAndCloseResult(c: string)
    ensures HasObjectSpan(c) ==> SliceAndClose(c) == c[IndexOf(c, '{')..LastIndexOf(c, '}') + 1] + "}"
    ensures !HasObjectSpan(c) ==> SliceAndClose(c) == "}"
  {
    if HasObjectSpan(c) {
      SliceAndCloseSpan(c);
    } else {
      SliceAndCloseNoSpan(c);
    }
  }

  /** When the unfenced reply is itself an object, from '{' to '}', the
      parser receives it with one '}' too many. */
  lemma CleanReplyOfObject(reply: string)
    requires var c := Unfenced(reply); |c| >= 2 && c[0] == '{' && c[|c| - 1] == '}'
    ensures CleanReply(reply) == Unfenced(reply) + "}"
  {
    var c := Unfenced(reply);
    IndexOfUnique(c, '{', 0);
    LastIndexOfUnique(c, '}', |c| - 1);
    CleanReplyResult(reply);
    assert c[0..|c|] == c;
  }

  /** A reply that is already a JSON object (no fences, no surrounding
      white space) reaches `JSON.parse` with one '}' too many. */
  lemma ObjectReplyGainsBrace(obj: string)
    requires |obj| >= 2 && obj[0] == '{' && obj[|obj| - 1] == '}'
    requires '`' !in obj
    ensures CleanReply(obj) == obj + "}"
  {
    TrimUnchanged(obj);
    StripFencesNoBacktick(obj);
    assert Unfenced(obj) == obj;
    CleanReplyOfObject(obj);
  }

  /** The same holds for a reply fenced as "```json\n<object>\n```". */
  lemma FencedObjectGainsBrace(obj: string)
    requires |obj| >= 2 && obj[0] == '{' && obj[|obj| - 1] == '}'
    requires '`' !in obj
    ensures CleanReply("```json\n" + obj + "\n```") == obj + "}"
  {
    var reply := "```json\n" + obj + "\n```";
    FencedUnfenced(obj);
    CleanReplyOfObject(reply);
  }

  lemma FencedUnfenced(obj: string)
    requires |obj| >= 2 && obj[0] == '{' && obj[|obj| - 1] == '}'
    requires '`' !in obj
    ensures Unfenced("```json\n" + obj + "\n```") == obj
  {
    var reply := "```json\n" + obj + "\n```";
    assert reply == "```json" + "\n" + (obj + "\n") + "```";
    TrimUnchanged(reply);
    FencedBody("\n", obj + "\n");
    TrimStartBlankPrefix([], obj + "\n");
    assert [] + (obj + "\n") == obj + "\n";
    TrimEndBlankSuffix(obj, "\n");
  }

  /** The parsed object: either what `JSON.parse` built from `json`, or the
      fields the route fills in itself. */
  datatype ProjectData =
    | Parsed(json: string)
    | Fields(answer: string, analysis: Option<string>)

  const UnformattedAnswer := "Analysis could not be properly formatted."
  const FormattingError := "Formatting error."

  /** One parse attempt on the cleaned reply (`parses` says whether
      `JSON.parse` accepts a string); on failure the raw reply, or a fixed
      text when it is empty, becomes the answer. */
  function NormalizeAnalysis(reply: string, parses: string -> bool): (d: ProjectData)
    ensures d.Parsed? <==> parses(CleanReply(reply))
    ensures d.Parsed? ==> d.json == CleanReply(reply)
    ensures d.Fields? ==> d.analysis == Some(FormattingError) && d.answer != ""
    ensures d.Fields? && reply != "" ==> d.answer == reply
  {
    var cleaned := CleanReply(reply);
    if parses(cleaned) then Parsed(cleaned)
    else Fields(if reply == "" then UnformattedAnswer else reply, Some(FormattingError))
  }

  /** A reply with no '{' before a '}' always takes the fallback, since the
      parser is handed the lone "}", which no JSON parser accepts; the
      answer is still non-empty. */
  lemma NoObjectFallsBack(reply: string, parses: string -> bool)
    requires !HasObjectSpan(Unfenced(reply))
    requires !parses("}")
    ensures NormalizeAnalysis(reply, parses).Fields?
    ensures NormalizeAnalysis(reply, parses).answer != ""
  {
    CleanReplyResult(reply);
  }

  /** An empty reply falls back to the fixed answer text. */
  lemma EmptyReplyFallsBack(parses: string -> bool)
    requires !parses("}")
    ensures NormalizeAnalysis("", parses) == Fields(UnformattedAnswer, Some(FormattingError))
  {
    assert Unfenced("") == "";
    CleanReplyResult("");
  }

}

=== FILE: solana_rpc.dfy ===
/** The Solana helpers the chat route calls: SOL balance, SPL token holdings
    summary and account information. The RPC connection, public-key parsing
    and floating-point rendering are external and arrive as a `Chain`. */
module SolanaRpc {
  import opened Text
  import opened Effects

  /** The parsed `info` of an SPL token account: `tokenAmount.uiAmount`
      (a number, or null) and the mint address. */
  datatype TokenInfo = TokenInfo(uiAmount: Option<real>, mint: string)

  /** One entry of `getParsedTokenAccountsByOwner(...).value`: the parsing
      program's name and the parsed info, if any. */
  datatype TokenAccount = TokenAccount(program: string, info: Option<TokenInfo>)

  /** The fields of `getParsedAccountInfo(...).value`. */
  datatype AccountData = AccountData(lamports: nat, executable: bool, owner: string, rentEpoch: int)

  /** The external side of the helpers. */
  datatype Chain = Chain(
    /** `new PublicKey(address)` does not throw */
    isValidAddress: string -> bool,
    /** `connection.getBalance`, in lamports */
    getBalance: string -> Reply<nat>,
    /** `(lamports / LAMPORTS_PER_SOL).toFixed(4)` */
    formatSol: nat -> string,
    /** `connection.getParsedTokenAccountsByOwner(..).value` */
    getTokenAccounts: string -> Reply<seq<TokenAccount>>,
    /** `${amount}` for a ui amount */
    renderAmount: real -> string,
    /** `connection.getParsedAccountInfo(..).value`; None when not found */
    getAccountInfo: string -> Reply<Option<AccountData>>,
    /** the summary lines after the header */
    describeAccount: AccountData -> string)

  /** Stands for what `new PublicKey` throws for a malformed address; all the
      model relies on is that it does not name an unrecognized token program. */
  const InvalidKeyMessage := "Invalid public key input"

  const NoTokensMessage := "No SPL tokens found for this address."
  const NoPositiveTokensMessage := "No SPL tokens found for this address (or all had zero balance)."
  const UnrecognizedProgram := "unrecognized Token program id"
  const ConfigurationMessage :=
    "Error: " + "Could not retrieve token holdings due to an internal configuration issue. Please contact support."

  /** `address.substring(0, 6) + "..." + address.slice(-6)`. */
  function Abbreviate(address: string): (r: string)
    ensures StartsWith(r, address[..Min(6, |address|)])
    ensures EndsWith(r, address[|address| - Min(6, |address|)..])
    ensures |r| == 2 * Min(6, |address|) + 3
    ensures r[Min(6, |address|)..Min(6, |address|) + 3] == "..."
  {
    var head, tail := Take(address, 6), TakeLast(address, 6);
    assert (head + "..." + tail)[|head|..|head| + 3] == "...";
    head + "..." + tail
  }

  /** `getSolBalance`: the formatted balance, or null on any error. */
  function GetSolBalance(address: string, chain: Chain): (r: Option<string>)
    ensures r.None? <==> !chain.isValidAddress(address) || chain.getBalance(address).Thrown?
    ensures r.Some? ==> r.value == chain.formatSol(chain.getBalance(address).value)
  {
    if !chain.isValidAddress(address) then None
    else match chain.getBalance(address)
      case Thrown(_) => None
      case Ok(lamports) => Some(chain.formatSol(lamports))
  }

  /** An account produces a line when it is parsed by 'spl-token', has
      parsed info and a ui amount above zero (`null > 0` is false). */
  predicate Qualifies(a: TokenAccount) {
    && a.program == "spl-token"
    && a.info.Some?
    && a.info.value.uiAmount.Some?
    && a.info.value.uiAmount.value > 0.0
  }

  const TokensOfMint := " tokens of mint: "

  /** One line of the summary: the rendered amount, " tokens of mint: ",
      and the abbreviated mint address. */
  function HoldingLine(info: TokenInfo, renderAmount: real -> string): (r: string)
    requires info.uiAmount.Some?
    ensures StartsWith(r, renderAmount(info.uiAmount.value) + TokensOfMint)
    ensures EndsWith(r, Abbreviate(info.mint))
    ensures |r| == |renderAmount(info.uiAmount.value)| + |TokensOfMint| + |Abbreviate(info.mint)|
  {
    var lead, abbr := renderAmount(info.uiAmount.value) + TokensOfMint, Abbreviate(info.mint);
    assert (lead + abbr)[..|lead|] == lead;
    assert (lead + abbr)[|lead + abbr| - |abbr|..] == abbr;
    lead + abbr
  }

  /** The `holdings` array built by the loop over the token accounts. */
  function HoldingLines(accounts: seq<TokenAccount>, renderAmount: real -> string): (r: seq<string>)
    ensures |r| <= |accounts|
    ensures |r| == 0 <==> forall i :: 0 <= i < |accounts| ==> !Qualifies(accounts[i])
  {
    if |accounts| == 0 then []
    else
      var rest := HoldingLines(accounts[1..], renderAmount);
      assert forall i :: 1 <= i < |accounts| ==> accounts[i] == accounts[1..][i - 1];
      if Qualifies(accounts[0]) then [HoldingLine(accounts[0].info.value, renderAmount)] + rest
      else rest
  }

  /** The loop keeps input order and drops nothing but non-qualifying
      accounts: it distributes over concatenation ... */
  lemma {:induction false} HoldingLinesAppend(a: seq<TokenAccount>, b: seq<TokenAccount>, renderAmount: real -> string)
    ensures HoldingLines(a + b, renderAmount) == HoldingLines(a, renderAmount) + HoldingLines(b, renderAmount)
    decreases |a|
  {
    if |a| > 0 {
      assert (a + b)[1..] == a[1..] + b;
      HoldingLinesAppend(a[1..], b, renderAmount);
    } else {
      assert a + b == b;
    }
  }

  /** ... and maps each single account to its line or to nothing. */
  lemma HoldingLinesSingle(a: TokenAccount, renderAmount: real -> string)
    ensures Qualifies(a) ==> HoldingLines([a], renderAmount) == [HoldingLine(a.info.value, renderAmount)]
    ensures !Qualifies(a) ==> HoldingLines([a], renderAmount) == []
  {
    assert [a][1..] == [];
  }

  /** The success path of `getTokenHoldings`. */
  function SummarizeHoldings(accounts: seq<TokenAccount>, renderAmount: real -> string): (r: string)
    ensures |accounts| == 0 ==> r == NoTokensMessage
    ensures |accounts| > 0 && (forall i :: 0 <= i < |accounts| ==> !Qualifies(accounts[i])) ==>
              r == NoPositiveTokensMessage
    ensures (exists i :: 0 <= i < |accounts| && Qualifies(accounts[i])) ==>
              r == Join(HoldingLines(accounts, renderAmount), "\n")
  {
    if |accounts| == 0 then NoTokensMessage
    else
      var holdings := HoldingLines(accounts, renderAmount);
      if |holdings| > 0 then Join(holdings, "\n") else NoPositiveTokensMessage
  }

  const HoldingsFailureLead := "Error retrieving token holdings for "

  /** The generic failure text of the token-holdings helper. */
  function HoldingsFailureMessage(address: string): string {
    HoldingsFailureLead + address + "."
  }

  /** The catch block of `getTokenHoldings`: a configuration notice when the
      error text names an unrecognized token program, the generic failure
      text otherwise. */
  function HoldingsErrorMessage(error: string, address: string): (r: string)
    ensures r == ConfigurationMessage <==> Contains(error, UnrecognizedProgram)
    ensures !Contains(error, UnrecognizedProgram) ==> r == HoldingsFailureMessage(address)
  {
    if Contains(error, UnrecognizedProgram) then ConfigurationMessage
    else
      var generic := HoldingsFailureMessage(address);
      assert generic[5] == HoldingsFailureLead[5] == ' ';
      assert ConfigurationMessage[5] == "Error: "[5] == ':';
      generic
  }

  /** `getTokenHoldings`: declared `string | null`, yet every path returns a
      string; errors become messages rather than null. */
  function GetTokenHoldings(address: string, chain: Chain): (r: Option<string>)
    ensures r.Some?
    ensures !chain.isValidAddress(address) ==>
              r.value == HoldingsFailureMessage(address)
    ensures chain.isValidAddress(address) && chain.getTokenAccounts(address).Thrown? ==>
              && (r.value == ConfigurationMessage
                  <==> Contains(chain.getTokenAccounts(address).message, UnrecognizedProgram))
              && (!Contains(chain.getTokenAccounts(address).message, UnrecognizedProgram) ==>
                    r.value == HoldingsFailureMessage(address))
    ensures chain.isValidAddress(address) && chain.getTokenAccounts(address).Ok? ==>
              r.value == SummarizeHoldings(chain.getTokenAccounts(address).value, chain.renderAmount)
  {
    if !chain.isValidAddress(address) then
      NotContainsLonger(InvalidKeyMessage, UnrecognizedProgram);
      Some(HoldingsErrorMessage(InvalidKeyMessage, address))
    else match chain.getTokenAccounts(address)
      case Thrown(m) => Some(HoldingsErrorMessage(m, address))
      case Ok(accounts) => Some(SummarizeHoldings(accounts, chain.renderAmount))
  }

  /** `getSolanaAccountInfo`: also declared nullable, also never null. */
  const AccountInfoLead := "Account Info for "

  /** The first line of a found account's summary. */
  function AccountHeader(address: string): string {
    AccountInfoLead + Abbreviate(address) + ":\n"
  }

  /** A found account's summary opens with its header, so it starts with
      "Account " and carries the abbreviated address. */
  lemma HeaderLeads(address: string, lines: string)
    ensures var s := AccountHeader(address) + lines;
            && StartsWith(s, AccountHeader(address))
            && StartsWith(s, "Account ") && Contains(s, Abbreviate(address))
  {
    var header := AccountHeader(address);
    var s := header + lines;
    TemplateCarries(AccountInfoLead, Abbreviate(address), ":\n", lines, []);
    assert s == AccountInfoLead + Abbreviate(address) + ":\n" + lines + [];
    assert s[..|header|] == header;
    assert s[..8] == AccountInfoLead[..8] == "Account ";
  }

  function GetSolanaAccountInfo(address: string, chain: Chain): (r: Option<string>)
    ensures r.Some?
    ensures !chain.isValidAddress(address) || chain.getAccountInfo(address).Thrown? ==>
              r.value == "Error retrieving account info for " + address + "."
    ensures chain.isValidAddress(address) && chain.getAccountInfo(address) == Ok(None) ==>
              r.value == "Account " + Abbreviate(address) + " not found."
    ensures chain.isValidAddress(address) && chain.getAccountInfo(address).Ok? ==>
              StartsWith(r.value, "Account ") && Contains(r.value, Abbreviate(address))
    ensures chain.isValidAddress(address) && chain.getAccountInfo(address).Ok?
            && chain.getAccountInfo(address).value.Some? ==>
              StartsWith(r.value, AccountHeader(address))
  {
    if !chain.isValidAddress(address) then Some("Error retrieving account info for " + address + ".")
    else match chain.getAccountInfo(address)
      case Thrown(_) => Some("Error retrieving account info for " + address + ".")
      case Ok(None) =>
        ContainsMiddle("Account ", Abbreviate(address), " not found.");
        Some("Account " + Abbreviate(address) + " not found.")
      case Ok(Some(data)) =>
        HeaderLeads(address, chain.describeAccount(data));
        Some(AccountHeader(address) + chain.describeAccount(data))
  }
}

=== FILE: text.dfy ===
/** String helpers with the JavaScript semantics the analyzer routes rely on:
    `trim`, the regex class `\s`, `includes`, `endsWith`, `substring`,
    `slice(-n)`, `join`, ASCII `toLowerCase` and decimal rendering/parsing. */
module Text {

  /** The JavaScript white-space and line-terminator set: what `trim()`
      strips and what the regex class `\s` matches. */
  predicate IsSpace(c: char) {
    || c == '\t' || c == '\n' || c == '\U{000B}' || c == '\U{000C}' || c == '\r'
    || c == ' ' || c == '\U{00A0}' || c == '\U{1680}'
    || ('\U{2000}' <= c <= '\U{200A}')
    || c == '\U{2028}' || c == '\U{2029}' || c == '\U{202F}' || c == '\U{205F}'
    || c == '\U{3000}' || c == '\U{FEFF}'
  }

  predicate IsBlank(s: string) {
    forall i :: 0 <= i < |s| ==> IsSpace(s[i])
  }

  /** Drops the longest white-space prefix (what `\s*` consumes greedily). */
  function TrimStart(s: string): (r: string)
    ensures |r| <= |s|
    ensures r == [] || !IsSpace(r[0])
  {
    if |s| > 0 && IsSpace(s[0]) then TrimStart(s[1..]) else s
  }

  /** What `TrimStart` keeps is the tail of s ... */
  lemma {:induction false} TrimStartTail(s: string)
    ensures s[..|s| - |TrimStart(s)|] + TrimStart(s) == s
    decreases |s|
  {
    if |s| > 0 && IsSpace(s[0]) {
      var r := TrimStart(s[1..]);
      var t := s[1..];
      TrimStartTail(t);
      assert t[..|t| - |r|] + r == t;
      assert s[..|s| - |r|] == [s[0]] + t[..|t| - |r|];
      assert s == [s[0]] + t;
    } else {
      assert s[..0] + s == s;
    }
  }

  /** ... after a blank prefix, and it keeps nothing exactly when s is blank. */
  lemma {:induction false} TrimStartBlank(s: string)
    ensures var r := TrimStart(s);
            IsBlank(s[..|s| - |r|]) && (r == [] <==> IsBlank(s))
    decreases |s|
  {
    if |s| > 0 && IsSpace(s[0]) {
      var r := TrimStart(s[1..]);
      TrimStartBlank(s[1..]);
      assert s[..|s| - |r|] == [s[0]] + s[1..][..|s| - 1 - |r|];
      assert forall i :: 1 <= i < |s| ==> s[i] == s[1..][i - 1];
    } else if |s| > 0 {
      assert !IsBlank(s);
    }
  }

  /** Drops the longest white-space suffix. */
  function TrimEnd(s: string): (r: string)
    ensures |r| <= |s|
    ensures r == [] || !IsSpace(r[|r| - 1])
  {
    if |s| > 0 && IsSpace(s[|s| - 1]) then TrimEnd(s[..|s| - 1]) else s
  }

  lemma {:induction false} TrimEndSpec(s: string)
    ensures var r := TrimEnd(s);
            && r == s[..|r|]
            && IsBlank(s[|r|..])
            && (r == [] <==> IsBlank(s))
    decreases |s|
  {
    if |s| > 0 && IsSpace(s[|s| - 1]) {
      var r := TrimEnd(s[..|s| - 1]);
      TrimEndSpec(s[..|s| - 1]);
      assert s[|r|..] == s[..|s| - 1][|r|..] + [s[|s| - 1]];
      assert forall i :: 0 <= i < |s| - 1 ==> s[i] == s[..|s| - 1][i];
    } else if |s| > 0 {
      assert !IsBlank(s);
    }
  }

  /** `String.prototype.trim`. */
  function Trim(s: string): (r: string)
    ensures |r| <= |s|
    ensures r == [] || (!IsSpace(r[0]) && !IsSpace(r[|r| - 1]))
  {
    TrimEndSpec(TrimStart(s));
    TrimEnd(TrimStart(s))
  }

  /** `!s.trim()` holds exactly for all-white-space s. */
  lemma TrimEmptyIffBlank(s: string)
    ensures Trim(s) == [] <==> IsBlank(s)
  {
    var t := TrimStart(s);
    TrimStartBlank(s);
    TrimEndSpec(t);
  }

  /** What `trim` keeps is one contiguous piece of s, with only white space
      cut from either side. */
  lemma TrimIsSlice(s: string)
    ensures exists p, w :: IsBlank(p) && IsBlank(w) && s == p + Trim(s) + w
  {
    var t := TrimStart(s);
    var r := Trim(s);
    TrimStartTail(s);
    TrimStartBlank(s);
    TrimEndSpec(t);
    var p, w := s[..|s| - |t|], t[|r|..];
    assert t == r + w;
    assert s == p + r + w;
  }

  /** Trimming leaves a string alone when it neither starts nor ends with white space. */
  lemma TrimUnchanged(s: string)
    requires s == [] || (!IsSpace(s[0]) && !IsSpace(s[|s| - 1]))
    ensures TrimStart(s) == s && Trim(s) == s
  {
  }

  lemma {:induction false} TrimStartBlankPrefix(ws: string, t: string)
    requires IsBlank(ws)
    requires t == [] || !IsSpace(t[0])
    ensures TrimStart(ws + t) == t
    decreases |ws|
  {
    if |ws| > 0 {
      assert (ws + t)[1..] == ws[1..] + t;
      TrimStartBlankPrefix(ws[1..], t);
    } else {
      assert ws + t == t;
    }
  }

  lemma {:induction false} TrimEndBlankSuffix(t: string, ws: string)
    requires IsBlank(ws)
    requires t == [] || !IsSpace(t[|t| - 1])
    ensures TrimEnd(t + ws) == t
    decreases |ws|
  {
    if |ws| > 0 {
      var s := t + ws;
      assert s[..|s| - 1] == t + ws[..|ws| - 1];
      TrimEndBlankSuffix(t, ws[..|ws| - 1]);
    } else {
      assert t + ws == t;
    }
  }

  function Min(a: int, b: int): int {
    if a <= b then a else b
  }

  /** `s.substring(0, n)` for n >= 0. */
  function Take(s: string, n: nat): (r: string)
    ensures |r| == Min(n, |s|) && r == s[..|r|]
  {
    if n <= |s| then s[..n] else s
  }

  /** `s.slice(-n)` for n > 0: the last n characters, or all of s if shorter. */
  function TakeLast(s: string, n: nat): (r: string)
    ensures |r| == Min(n, |s|) && r == s[|s| - |r|..]
  {
    if n <= |s| then s[|s| - n..] else s
  }

  predicate StartsWith(s: string, prefix: string) {
    |prefix| <= |s| && s[..|prefix|] == prefix
  }

  /** `s.endsWith(suffix)`. */
  predicate EndsWith(s: string, suffix: string) {
    |suffix| <= |s| && s[|s| - |suffix|..] == suffix
  }

  /** `s.includes(sub)`. */
  predicate Contains(s: string, sub: string)
    decreases |s|
  {
    StartsWith(s, sub) || (|s| > 0 && Contains(s[1..], sub))
  }

  lemma {:induction false} ContainsMiddle(a: string, sub: string, b: string)
    ensures Contains(a + sub + b, sub)
    decreases |a|
  {
    if |a| == 0 {
      assert (a + sub + b)[..|sub|] == sub;
    } else {
      assert (a + sub + b)[1..] == a[1..] + sub + b;
      ContainsMiddle(a[1..], sub, b);
    }
  }

  lemma {:induction false} ContainsPrefixed(s: string, mid: string, sub: string)
    requires StartsWith(s, mid) && Contains(mid, sub)
    ensures Contains(s, sub)
    decreases |mid|
  {
    if StartsWith(mid, sub) {
      assert s[..|sub|] == mid[..|mid|][..|sub|];
    } else {
      assert s[1..][..|mid| - 1] == mid[1..];
      ContainsPrefixed(s[1..], mid[1..], sub);
    }
  }

  /** A template of a lead, a piece, a middle, a piece and a tail starts
      with its lead and contains both pieces. */
  lemma TemplateCarries(a: string, x: string, b: string, y: string, c: string)
    ensures StartsWith(a + x + b + y + c, a)
    ensures Contains(a + x + b + y + c, x) && Contains(a + x + b + y + c, y)
  {
    var s := a + x + b + y + c;
    assert s == a + x + (b + y + c);
    ContainsMiddle(a, x, b + y + c);
    ContainsMiddle(a + x + b, y, c);
    assert s[..|a|] == a;
  }

  /** What a part contains, a text made of three parts contains too. */
  lemma ThirdPartCarries(a: string, b: string, c: string, x: string)
    requires Contains(c, x)
    ensures StartsWith(a + b + c, a) && Contains(a + b + c, x)
  {
    TemplateCarries(a, b, [], c, []);
    assert a + b + c == a + b + [] + c + [];
    ContainsTransitive(a + b + c, c, x);
  }

  /** Containment is transitive. */
  lemma {:induction false} ContainsTransitive(s: string, mid: string, sub: string)
    requires Contains(s, mid) && Contains(mid, sub)
    ensures Contains(s, sub)
    decreases |s|
  {
    if StartsWith(s, mid) {
      ContainsPrefixed(s, mid, sub);
    } else {
      ContainsTransitive(s[1..], mid, sub);
    }
  }

  lemma {:induction false} NotContainsLonger(s: string, sub: string)
    requires |sub| > |s|
    ensures !Contains(s, sub)
    decreases |s|
  {
    if |s| > 0 {
      NotContainsLonger(s[1..], sub);
    }
  }

  function LowerChar(c: char): char {
    if 'A' <= c <= 'Z' then (c as int + 32) as char else c
  }

  /** `toLowerCase` on the ASCII letters; every other character is kept. */
  function ToLower(s: string): (r: string)
    ensures |r| == |s|
    ensures forall i :: 0 <= i < |s| ==> r[i] == LowerChar(s[i])
  {
    if |s| == 0 then [] else [LowerChar(s[0])] + ToLower(s[1..])
  }

  /** `parts.join(sep)`. */
  function Join(parts: seq<string>, sep: string): string {
    if |parts| == 0 then ""
    else if |parts| == 1 then parts[0]
    else parts[0] + sep + Join(parts[1..], sep)
  }

  /** Index of the first occurrence of c, or -1 (`indexOf`). */
  function IndexOf(s: string, c: char): (r: int)
    ensures -1 <= r < |s|
    ensures r >= 0 ==> s[r] == c
  {
    if |s| == 0 then -1
    else if s[0] == c then 0
    else
      var k := IndexOf(s[1..], c);
      if k == -1 then -1 else k + 1
  }

  /** No occurrence of c precedes the one `indexOf` reports, and there is
      none at all when it reports -1. */
  lemma {:induction false} IndexOfFirst(s: string, c: char)
    ensures forall k :: 0 <= k < |s| && (IndexOf(s, c) < 0 || k < IndexOf(s, c)) ==> s[k] != c
    decreases |s|
  {
    if |s| > 0 && s[0] != c {
      IndexOfFirst(s[1..], c);
      assert forall k :: 1 <= k < |s| ==> s[k] == s[1..][k - 1];
    }
  }

  /** The position of a character with no earlier occurrence is its first index. */
  lemma IndexOfUnique(s: string, c: char, i: int)
    requires 0 <= i < |s| && s[i] == c
    requires forall k :: 0 <= k < i ==> s[k] != c
    ensures IndexOf(s, c) == i
  {
    IndexOfFirst(s, c);
  }

  /** Index of the last occurrence of c, or -1 (`lastIndexOf`). */
  function LastIndexOf(s: string, c: char): (r: int)
    ensures -1 <= r < |s|
    ensures r >= 0 ==> s[r] == c
  {
    if |s| == 0 then -1
    else if s[|s| - 1] == c then |s| - 1
    else LastIndexOf(s[..|s| - 1], c)
  }

  /** No occurrence of c follows the one `lastIndexOf` reports. */
  lemma {:induction false} LastIndexOfLast(s: string, c: char)
    ensures forall k :: LastIndexOf(s, c) < k < |s| ==> s[k] != c
    decreases |s|
  {
    if |s| > 0 && s[|s| - 1] != c {
      LastIndexOfLast(s[..|s| - 1], c);
    }
  }

  /** The position of a character with no later occurrence is its last index. */
  lemma LastIndexOfUnique(s: string, c: char, j: int)
    requires 0 <= j < |s| && s[j] == c
    requires forall k :: j < k < |s| ==> s[k] != c
    ensures LastIndexOf(s, c) == j
  {
    LastIndexOfLast(s, c);
  }

  predicate IsDigit(c: char) {
    '0' <= c <= '9'
  }

  predicate AllDigits(s: string) {
    forall i :: 0 <= i < |s| ==> IsDigit(s[i])
  }

  /** The value of a decimal digit string, as `parseInt(s, 10)` reads it
      (leading zeros allowed, no sign). */
  function DigitsValue(s: string): nat
    requires AllDigits(s)
  {
    if |s| == 0 then 0
    else DigitsValue(s[..|s| - 1]) * 10 + (s[|s| - 1] as int - '0' as int)
  }

  /** Decimal rendering of a natural number, as a template literal prints it. */
  function NatToString(n: nat): (r: string)
    ensures |r| > 0 && AllDigits(r)
    ensures |r| > 1 ==> r[0] != '0'
  {
    var d := ['0' + (n % 10) as char];
    if n < 10 then d else NatToString(n / 10) + d
  }

  function IntToString(n: int): string {
    if n < 0 then "-" + NatToString(-n) else NatToString(n)
  }

  /** Rendering then reading back a count gives the count. */
  lemma {:induction false} DigitsValueOfNatToString(n: nat)
    ensures DigitsValue(NatToString(n)) == n
  {
    var r := NatToString(n);
    if n >= 10 {
      DigitsValueOfNatToString(n / 10);
      assert r[..|r| - 1] == NatToString(n / 10);
    }
  }
}

=== FILE: tool_dispatch.dfy ===
/** The chat branch of the main analyzer route: the model's first candidate
    is inspected for a function call; the first such call is dispatched to
    one of the Solana helpers, and the tool's result (or error) is sent back
    to the model for a natural-language answer. Without a call, the text
    parts are the answer. */
module ToolDispatch {
  import opened Text
  import opened Effects
  import opened Gemini
  import opened SolanaRpc

  /** The `type` field of a successful response. */
  datatype ResponseType = LlmAnalysis | OnchainSolBalance | OnchainTokenHoldings | WhitepaperAnalysis {
    function WireName(): string {
      match this
      case LlmAnalysis => "llm_analysis"
      case OnchainSolBalance => "onchain_sol_balance"
      case OnchainTokenHoldings => "onchain_token_holdings"
      case WhitepaperAnalysis => "whitepaper_analysis"
    }
  }

  const SolBalanceTool := "getSolBalance"
  const TokenHoldingsTool := "getTokenHoldings"
  const AccountInfoTool := "getSolanaAccountInfo"

  /** The three names the route dispatches on. */
  predicate IsKnownTool(name: string) {
    name == SolBalanceTool || name == TokenHoldingsTool || name == AccountInfoTool
  }

  function NoAddressMessage(tool: string): string {
    "No address provided for " + tool + "."
  }

  function InvalidAddressMessage(address: string): string {
    "Invalid Solana address provided: " + address + "."
  }

  function SolFailureMessage(address: string): string {
    "Failed to get SOL balance for " + address + "."
  }

  function TokenFailureMessage(address: string): string {
    "Failed to get token holdings for " + address + "."
  }

  const NotUnderstoodAnswer := "I couldn't understand that request."
  const NoClearResponseAnswer := "I processed your request, but couldn't generate a clear response."

  /** What reading `content.parts` of a blocked candidate throws. */
  const NoContentError := "Cannot read properties of undefined (reading 'parts')"
  /** What `content.parts.filter` throws when the parts list is missing. */
  const NoPartsError := "Cannot read properties of undefined (reading 'filter')"

  /** Index of the first part carrying a function call, at or after `from`
      (`parts.find(part => part.functionCall)`). */
  function FirstCallFrom(parts: seq<Part>, from: nat): (r: Option<nat>)
    requires from <= |parts|
    ensures r.None? <==> forall i :: from <= i < |parts| ==> parts[i].call.None?
    ensures r.Some? ==> from <= r.value < |parts| && parts[r.value].call.Some?
    ensures r.Some? ==> forall i :: from <= i < r.value ==> parts[i].call.None?
    decreases |parts| - from
  {
    if from == |parts| then None
    else if parts[from].call.Some? then Some(from)
    else FirstCallFrom(parts, from + 1)
  }

  function FirstCall(parts: seq<Part>): Option<nat> {
    FirstCallFrom(parts, 0)
  }

  /** What a dispatched tool leaves behind: `toolResult`, `toolError` (null
      as None) and the response type. */
  datatype ToolOutcome = ToolOutcome(result: Option<string>, error: Option<string>, kind: ResponseType)

  /** The branch on the function name. Each known tool needs a truthy
      address that `new PublicKey` accepts; only then is the helper called
      and the response type changed. The account-info tool reuses the
      token-holdings messages and type. An unknown name leaves everything
      null. */
  function RunTool(call: FunctionCall, chain: Chain): (o: ToolOutcome)
    ensures o.result.Some? ==> o.error.None?
    ensures o.result.None? && o.error.None? <==> !IsKnownTool(call.name)
    ensures o.kind != WhitepaperAnalysis
    ensures call.address != "" && chain.isValidAddress(call.address) ==>
              && (call.name == SolBalanceTool ==> o.result == GetSolBalance(call.address, chain))
              && (call.name == TokenHoldingsTool ==> o.result == GetTokenHoldings(call.address, chain))
              && (call.name == AccountInfoTool ==> o.result == GetSolanaAccountInfo(call.address, chain))
  {
    var a := call.address;
    if call.name == SolBalanceTool then
      if a == "" then ToolOutcome(None, Some(NoAddressMessage(SolBalanceTool)), LlmAnalysis)
      else if !chain.isValidAddress(a) then ToolOutcome(None, Some(InvalidAddressMessage(a)), LlmAnalysis)
      else
        var r := GetSolBalance(a, chain);
        ToolOutcome(r, if r.None? then Some(SolFailureMessage(a)) else None, OnchainSolBalance)
    else if call.name == TokenHoldingsTool || call.name == AccountInfoTool then
      if a == "" then ToolOutcome(None, Some(NoAddressMessage(TokenHoldingsTool)), LlmAnalysis)
      else if !chain.isValidAddress(a) then ToolOutcome(None, Some(InvalidAddressMessage(a)), LlmAnalysis)
      else
        var r := if call.name == TokenHoldingsTool then GetTokenHoldings(a, chain) else GetSolanaAccountInfo(a, chain);
        ToolOutcome(r, if r.None? then Some(TokenFailureMessage(a)) else None, OnchainTokenHoldings)
    else ToolOutcome(None, None, LlmAnalysis)
  }

  /** The response type becomes an on-chain one exactly when a known tool
      got a non-empty, valid address; otherwise it stays 'llm_analysis'. */
  lemma ToolKind(call: FunctionCall, chain: Chain)
    ensures var o := RunTool(call, chain);
            var usable := call.address != "" && chain.isValidAddress(call.address);
            && (o.kind == OnchainSolBalance <==> call.name == SolBalanceTool && usable)
            && (o.kind == OnchainTokenHoldings <==>
                  (call.name == TokenHoldingsTool || call.name == AccountInfoTool) && usable)
            && (o.kind == LlmAnalysis <==> !(IsKnownTool(call.name) && usable))
  {
  }

  /** A known tool with a missing address reports it, naming getSolBalance
      for that tool and getTokenHoldings for the other two. */
  lemma MissingAddress(call: FunctionCall, chain: Chain)
    requires IsKnownTool(call.name) && call.address == ""
    ensures RunTool(call, chain).error ==
              Some(NoAddressMessage(if call.name == SolBalanceTool then SolBalanceTool else TokenHoldingsTool))
    ensures RunTool(call, chain).result.None?
  {
  }

  /** A known tool with an address `new PublicKey` rejects reports it. */
  lemma InvalidAddress(call: FunctionCall, chain: Chain)
    requires IsKnownTool(call.name) && call.address != "" && !chain.isValidAddress(call.address)
    ensures RunTool(call, chain) == ToolOutcome(None, Some(InvalidAddressMessage(call.address)), LlmAnalysis)
  {
  }

  /** The token-holdings and account-info helpers never return null, so
      their "Failed to get token holdings" branches cannot be reached: with
      a usable address the outcome always carries a result. */
  lemma TokenToolsAlwaysAnswer(call: FunctionCall, chain: Chain)
    requires call.name == TokenHoldingsTool || call.name == AccountInfoTool
    requires call.address != "" && chain.isValidAddress(call.address)
    ensures RunTool(call, chain).result.Some?
    ensures RunTool(call, chain).error != Some(TokenFailureMessage(call.address))
  {
  }

  /** The balance helper does return null when the RPC call fails; the
      response type is then already 'onchain_sol_balance'. */
  lemma SolFailureReachable(call: FunctionCall, chain: Chain)
    requires call.name == SolBalanceTool
    requires call.address != "" && chain.isValidAddress(call.address)
    requires chain.getBalance(call.address).Thrown?
    ensures RunTool(call, chain) == ToolOutcome(None, Some(SolFailureMessage(call.address)), OnchainSolBalance)
  {
  }

  /** The result line of the follow-up prompt: the JSON rendering of the
      result, or "Error: " and the error, which prints as "null" when the
      tool was unknown. */
  function ResultText(o: ToolOutcome, stringify: string -> string): (r: string)
    ensures o.result.None? ==> StartsWith(r, "Error: ")
    ensures o.result.None? && o.error.None? ==> r == "Error: null"
    ensures o.result.Some? ==> r == stringify(o.result.value)
    ensures o.result.None? && o.error.Some? ==> r == "Error: " + o.error.value
  {
    if o.result.Some? then stringify(o.result.value)
    else "Error: " + (if o.error.Some? then o.error.value else "null")
  }

  const FollowUpRequest := "Please provide a natural language response to the user based on this information."

  const AskedLead := "The user asked: \""
  const CalledLead := "\"\n\nI called the function "
  const ArgumentsLead := " with arguments "
  const ResultLead := " and got this result:\n"
  const FollowUpTail := "\n\n" + FollowUpRequest

  /** The prompt asking the model to phrase the tool result for the user:
      it carries the user's prompt, the tool's name and arguments, and the
      result line. */
  function FollowUpPrompt(prompt: string, call: FunctionCall, o: ToolOutcome, stringify: string -> string): (r: string)
    ensures StartsWith(r, AskedLead)
    ensures Contains(r, prompt) && Contains(r, ResultText(o, stringify))
    ensures Contains(r, call.name) && Contains(r, call.argsJson)
  {
    var called := CalledLead + call.name + ArgumentsLead + call.argsJson + ResultLead;
    var result := ResultText(o, stringify);
    TemplateCarries(CalledLead, call.name, ArgumentsLead, call.argsJson, ResultLead);
    TemplateCarries(AskedLead, prompt, called, result, FollowUpTail);
    var r := AskedLead + prompt + called + result + FollowUpTail;
    ContainsMiddle(AskedLead + prompt, called, result + FollowUpTail);
    assert r == AskedLead + prompt + called + (result + FollowUpTail);
    ContainsTransitive(r, called, call.name);
    ContainsTransitive(r, called, call.argsJson);
    r
  }

  /** Whatever the tool produced reaches the model: its rendered result,
      or else its error message. */
  lemma ToolOutcomeReachesModel(prompt: string, call: FunctionCall, chain: Chain, stringify: string -> string)
    ensures var o := RunTool(call, chain);
            var p := FollowUpPrompt(prompt, call, o, stringify);
            && (o.result.Some? ==> Contains(p, stringify(o.result.value)))
            && (o.error.Some? ==> Contains(p, o.error.value))
  {
    var o := RunTool(call, chain);
    var p := FollowUpPrompt(prompt, call, o, stringify);
    if o.error.Some? {
      var line := ResultText(o, stringify);
      ContainsMiddle("Error: ", o.error.value, []);
      assert line == "Error: " + o.error.value + [];
      ContainsTransitive(p, line, o.error.value);
    }
  }

  /** An unknown tool name reaches the model as "Error: null". */
  lemma UnknownToolSaysNull(prompt: string, call: FunctionCall, chain: Chain, stringify: string -> string)
    requires !IsKnownTool(call.name)
    ensures Contains(FollowUpPrompt(prompt, call, RunTool(call, chain), stringify), "Error: null")
  {
    assert ResultText(RunTool(call, chain), stringify) == "Error: null";
  }

  /** The texts of the parts with a truthy `text`, in order. */
  function TextParts(parts: seq<Part>): (r: seq<string>)
    ensures |r| <= |parts|
    ensures forall i :: 0 <= i < |r| ==> r[i] != ""
    ensures |r| == 0 <==> forall i :: 0 <= i < |parts| ==> parts[i].text == ""
  {
    if |parts| == 0 then []
    else
      var rest := TextParts(parts[1..]);
      assert forall i :: 1 <= i < |parts| ==> parts[i] == parts[1..][i - 1];
      if parts[0].text != "" then [parts[0].text] + rest else rest
  }

  /** The filter keeps order: it distributes over concatenation ... */
  lemma {:induction false} TextPartsAppend(a: seq<Part>, b: seq<Part>)
    ensures TextParts(a + b) == TextParts(a) + TextParts(b)
    decreases |a|
  {
    if |a| > 0 {
      assert (a + b)[1..] == a[1..] + b;
      TextPartsAppend(a[1..], b);
    } else {
      assert a + b == b;
    }
  }

  /** ... and keeps a single part exactly when its text is non-empty. */
  lemma TextPartsSingle(p: Part)
    ensures TextParts([p]) == (if p.text != "" then [p.text] else [])
  {
    assert [p][1..] == [];
  }

  /** A join whose first piece is non-empty is non-empty. */
  lemma JoinStartsWithFirst(pieces: seq<string>, sep: string)
    requires |pieces| > 0
    ensures StartsWith(Join(pieces, sep), pieces[0])
  {
  }

  /** The answer when no part calls a function: the non-empty texts joined
      by single spaces, or a fixed apology when there are none. */
  function DirectAnswer(parts: seq<Part>): (r: string)
    ensures r != ""
    ensures (forall i :: 0 <= i < |parts| ==> parts[i].text == "") ==> r == NotUnderstoodAnswer
    ensures (exists i :: 0 <= i < |parts| && parts[i].text != "") ==> r == Join(TextParts(parts), " ")
  {
    var texts := TextParts(parts);
    if |texts| > 0 then
      JoinStartsWithFirst(texts, " ");
      Join(texts, " ")
    else NotUnderstoodAnswer
  }

  /** How the chat branch ends: an answer with its type, the "no response"
      failure, or a thrown error's message. */
  datatype ChatOutcome = Answered(answer: string, kind: ResponseType) | NoResponse | ChatFailed(message: string)

  /** The function-call branch: run the tool, hand its outcome to the model
      and answer with the model's reply under the tool's response type; an
      empty reply is replaced by a fixed sentence. */
  function AnswerCall(prompt: string, call: FunctionCall, model: Model, chain: Chain,
                      stringify: string -> string): (r: ChatOutcome)
    ensures r.Answered? ==> r.answer != "" && r.kind == RunTool(call, chain).kind
    ensures r.ChatFailed? <==>
              model.generateText(FollowUpPrompt(prompt, call, RunTool(call, chain), stringify)).Thrown?
  {
    var outcome := RunTool(call, chain);
    match CallForAnalysis(model, FollowUpPrompt(prompt, call, outcome, stringify))
    case Thrown(m) => ChatFailed(m)
    case Ok(reply) => Answered(if reply == "" then NoClearResponseAnswer else reply, outcome.kind)
  }

  /** The parts of the first candidate, once they are known to exist. */
  function AnswerFromParts(prompt: string, parts: seq<Part>, model: Model, chain: Chain,
                           stringify: string -> string): (r: ChatOutcome)
    ensures r.Answered? ==> r.answer != "" && r.kind != WhitepaperAnalysis
    ensures FirstCall(parts).None? ==> r == Answered(DirectAnswer(parts), LlmAnalysis)
    ensures FirstCall(parts).Some? ==>
              r == AnswerCall(prompt, parts[FirstCall(parts).value].call.value, model, chain, stringify)
  {
    match FirstCall(parts)
    case None => Answered(DirectAnswer(parts), LlmAnalysis)
    case Some(i) => AnswerCall(prompt, parts[i].call.value, model, chain, stringify)
  }

  /** Only the first function-call part matters: every other part, text or
      call, before or after it, can be dropped. */
  lemma OnlyFirstCallMatters(prompt: string, parts: seq<Part>, i: nat, model: Model, chain: Chain,
                             stringify: string -> string)
    requires FirstCall(parts) == Some(i)
    ensures AnswerFromParts(prompt, parts, model, chain, stringify)
         == AnswerFromParts(prompt, [parts[i]], model, chain, stringify)
  {
    assert FirstCallFrom([parts[i]], 1) == None;
  }

  /** How the follow-up reply becomes the answer: a failure is reported
      with the wrapper's message, an empty reply becomes a fixed sentence,
      any other reply is the answer; the type is the tool's. */
  lemma FollowUpAnswer(prompt: string, call: FunctionCall, model: Model, chain: Chain,
                       stringify: string -> string)
    ensures var o := RunTool(call, chain);
            var follow := model.generateText(FollowUpPrompt(prompt, call, o, stringify));
            var r := AnswerCall(prompt, call, model, chain, stringify);
            && (follow.Thrown? ==> r == ChatFailed(ApiError(follow.message)))
            && (follow == Ok("") ==> r == Answered(NoClearResponseAnswer, o.kind))
            && (follow.Ok? && follow.value != "" ==> r == Answered(follow.value, o.kind))
  {
  }

  /** The chat branch from the prompt on (`callGeminiWithTools` through the
      answer). Failures inside the branch are caught and reported. */
  function HandleChat(prompt: string, model: Model, chain: Chain, stringify: string -> string): (r: ChatOutcome)
    ensures r.Answered? ==> r.answer != "" && r.kind != WhitepaperAnalysis
    ensures model.sendWithTools(prompt).Thrown? ==> r == ChatFailed(ApiError(model.sendWithTools(prompt).message))
    ensures model.sendWithTools(prompt) == Ok([]) <==> r.NoResponse?
  {
    match CallWithTools(model, prompt)
    case Thrown(m) => ChatFailed(m)
    case Ok(candidates) =>
      if |candidates| == 0 then NoResponse
      else match candidates[0].content
        case None => ChatFailed(NoContentError)
        case Some(content) =>
          match content.parts
          case None => ChatFailed(NoPartsError)
          case Some(parts) => AnswerFromParts(prompt, parts, model, chain, stringify)
  }

  /** Only the first candidate is read; a blocked one, or one without
      parts, makes the branch throw a TypeError. */
  lemma FirstCandidateOnly(prompt: string, model: Model, chain: Chain, stringify: string -> string)
    requires model.sendWithTools(prompt).Ok? && |model.sendWithTools(prompt).value| > 0
    ensures var c := model.sendWithTools(prompt).value[0];
            && (c.content.None? ==> HandleChat(prompt, model, chain, stringify) == ChatFailed(NoContentError))
            && (c.content.Some? && c.content.value.parts.None? ==>
                  HandleChat(prompt, model, chain, stringify) == ChatFailed(NoPartsError))
            && (c.content.Some? && c.content.value.parts.Some? ==>
                  HandleChat(prompt, model, chain, stringify)
                  == AnswerFromParts(prompt, c.content.value.parts.value, model, chain, stringify))
  {
  }
}

=== FILE: upload.dfy ===
/** What both analyzer routes share about an uploaded form: the parsed
    `fileCount` field, the uploaded file's metadata, the PDF and size checks
    with their messages. */
module Upload {
  import opened Text
  import opened Effects

  /** `parseInt(field || '0')`: an integer, or NaN when the field is not numeric. */
  datatype FormCount = Count(n: int) | NotANumber {
    predicate IsZero() { Count? && n == 0 }
    predicate IsPositive() { Count? && n > 0 }

    /** How `${fileCount}` renders the value in a template literal. */
    function Render(): string {
      match this
      case Count(n) => IntToString(n)
      case NotANumber => "NaN"
    }
  }

  /** The `File` entry of a form: its name, declared MIME type and byte size.
      Its content is only ever seen through the text-extraction oracle. */
  datatype FileInfo = FileInfo(name: string, mimeType: string, size: nat)

  /** `10 * 1024 * 1024` bytes. */
  const MaxFileSize: nat := 10 * 1024 * 1024

  /** `file.type.includes('pdf') || file.name.toLowerCase().endsWith('.pdf')`. */
  predicate IsPdf(f: FileInfo) {
    Contains(f.mimeType, "pdf") || EndsWith(ToLower(f.name), ".pdf")
  }

  function NotPdfMessage(name: string): string {
    "File " + name + " is not a PDF. Only PDF files are supported."
  }

  function TooLargeMessage(name: string): string {
    "File " + name + " exceeds 10MB size limit"
  }

  function NoTextMessage(name: string): string {
    "Could not extract text from " + name + ". The PDF might be image-based or corrupted."
  }

  function ProcessFailedMessage(name: string, reason: string): string {
    "Failed to process file " + name + ": " + reason
  }

  /** The failure messages raised while reading a file name it. */
  lemma MessagesNameFile(name: string, reason: string)
    ensures Contains(ProcessFailedMessage(name, reason), name)
    ensures Contains(NoTextMessage(name), name)
  {
    ContainsMiddle("Failed to process file ", name, ": " + reason);
    assert ProcessFailedMessage(name, reason) == "Failed to process file " + name + (": " + reason);
    ContainsMiddle("Could not extract text from ", name, ". The PDF might be image-based or corrupted.");
  }

  /** The message `extractTextFromPDF` throws when the parser fails. */
  const ExtractFailed := "Failed to extract text from PDF"

  /** The upload checks both routes run before reading the file: the type
      check first, then the size check. `None` means the file may be read. */
  function CheckUpload(f: FileInfo): (r: Option<string>)
    ensures r == None <==> IsPdf(f) && f.size <= MaxFileSize
    ensures !IsPdf(f) ==> r == Some(NotPdfMessage(f.name))
    ensures IsPdf(f) && f.size > MaxFileSize ==> r == Some(TooLargeMessage(f.name))
    ensures r.Some? ==> Contains(r.value, f.name)
  {
    if !IsPdf(f) then
      ContainsMiddle("File ", f.name, " is not a PDF. Only PDF files are supported.");
      Some(NotPdfMessage(f.name))
    else if f.size > MaxFileSize then
      ContainsMiddle("File ", f.name, " exceeds 10MB size limit");
      Some(TooLargeMessage(f.name))
    else None
  }

  /** Exactly 10 MiB is accepted and one byte more is refused. */
  lemma SizeLimitBoundary(name: string, mimeType: string)
    requires Contains(mimeType, "pdf")
    ensures CheckUpload(FileInfo(name, mimeType, MaxFileSize)) == None
    ensures CheckUpload(FileInfo(name, mimeType, MaxFileSize + 1)) == Some(TooLargeMessage(name))
  {
  }

  /** A name ending in ".PDF" in any letter case passes the type check
      whatever MIME type the browser declared. */
  lemma PdfExtensionAnyCase(name: string, mimeType: string, size: nat)
    requires |name| >= 4 && LowerChar(name[|name| - 4]) == '.'
    requires LowerChar(name[|name| - 3]) == 'p' && LowerChar(name[|name| - 2]) == 'd'
    requires LowerChar(name[|name| - 1]) == 'f'
    ensures IsPdf(FileInfo(name, mimeType, size))
  {
    var low := ToLower(name);
    assert low[|low| - 4..] == ".pdf";
  }
}
